=== FILE: README.md ===
# Human segmentation: a Dafny model of its core

The repository segments prominent people in photographs with a small
TensorFlow Lite network and offers a web demo that replaces the background
behind them. This project models four pieces of it and proves properties
about them:

- **the command-line argument parser** (`ArgsParser`, in `args_parser.dfy`):
  - tokens starting with `-` are flags and open a group; every other token joins the open group;
  - values before any flag belong to the empty key;
  - a group without values is dropped, and a flag whose group was already stored raises.

  The source keeps one list object for the open group and stores that very object under each key. After parsing, every key is therefore bound to the same list. The model represents the table as a set of keys plus one shared sequence.
- **the segmentation engine** (`Segmentation`, in `segmentation.dfy`):
  - it resizes and normalises the image for the network;
  - it thresholds each confidence plane at 0.5 and inverts it with 64-bit NOT followed by an 8-bit wrap;
  - it resizes both planes back and fuses them with a joint bilateral filter;
  - it replicates the result into three identical channels.
- **background replacement** (`Background`, in `background.dfy`):
  - it computes the size that scales the overlay to cover the photo, then crops the bottom-right window;
  - it composites the photo over that window where the thresholded mask is set.

  The demo's use of the two operations together is in `demo.dfy`.
- **the image-regression test harness** (`Regression`, in `regression.dfy`):
  - where a test's golden image lives, using the POSIX path operations in `posix_path.dfy`;
  - reading and writing that image, with the file system as a map from path to image;
  - when a new result counts as a regression;
  - which tests an overwrite run skips.

The supporting modules:

- `Images` holds pixel grids, the 8-bit sample type, OpenCV's fixed-point luma and bitwise OR.
- `Wrappers` holds `Option` and `Result`.

Resizing, inference and the joint bilateral filter are black boxes. They are function-typed parameters whose only contract is the shape of their result.

Filter roles: the engine calls `cv2.ximgproc.jointBilateralFilter(background_resized, foreground_resized, 8, 75, 75)`. OpenCV's argument order is `(joint, src, d, sigmaColor, sigmaSpace)`, so the code smooths the foreground plane, guided by the background plane. Both planes are thresholded, inverted and resized back the same way before the filter. The model follows the code (`Segmentation.MaskFollowsForeground`, `Segmentation.MaskFollowsBackground`).

## Model

| member | source | states |
|---|---|---|
| `ArgsParser.AppendFlagAndArgs` | src/utils/args_parser.py:55-64 | Closing a group raises exactly when its flag is already stored, before looking at its values; otherwise the key set grows by the flag exactly when the group has values. |
| `ArgsParser.ParseCharacterization` | src/utils/args_parser.py:13-27 | Parsing is described without the loop. It fails exactly when a flag reopens a group already stored. Otherwise the keys are the flags (or the empty key) of groups with values, all bound to the tokens after the last flag. |
| `ArgsParser.ParseSucceedsIff` | src/utils/args_parser.py:18-27 | Parsing succeeds exactly when no flag recurs after an occurrence that had values. A repeat of a value-less flag is accepted, and a value-less repeat of a stored flag is not. |
| `ArgsParser.GroupOfValue` | src/utils/args_parser.py:18-25 | Every value belongs to the stored group opened by the last flag before it, or to the empty key's group. |
| `ArgsParser.EmptyExactlyWithoutValues` | src/utils/args_parser.py:29-31 | `is_empty()` holds after parsing exactly when no token is a value. |
| `ArgsParser.LeadingValuesUnderEmptyKey` | src/utils/args_parser.py:13-27 | Values before the first flag are stored under the empty key. |
| `ArgsParser.WithoutFlagsOneGroup` | src/utils/args_parser.py:13-27 | Without flags, all tokens form the single group of the empty key, which is stored only when non-empty. |
| `ArgsParser.GetString` | src/utils/args_parser.py:37-53 | A missing key yields the default, or an error without one. A present key yields its only value, and a count other than one raises with that count. |
| `ArgsParser.GetStringAfterParse` | src/utils/args_parser.py:37-53 | After parsing, `get_string` on any stored key succeeds exactly when the last group has exactly one value, and it answers that value. The last group is the one after the last flag, or the whole input when there is no flag. A key that is not stored yields the default, or a missing-key error without one. |
| `ArgsParser.HasFlagAfterParse` | src/utils/args_parser.py:33-35 | After parsing, `has_flag(k)` holds exactly when `k` is stored and the input ends with a flag. |
| `ArgsParser.HasFlagOfValuelessFlag` | src/utils/args_parser.py:33-35 | As written: on `-i in.png -v`, `has_flag` is true for `-i` and false for `-v`. |
| `ArgsParser.CopiedGroupsAreNonEmpty` | src/utils/args_parser.py:33-35 | With a copy per key, every stored list is non-empty, so the empty-list test of `has_flag` never holds. |
| `ArgsParser.FlagsSeenExactly` | src/utils/args_parser.py:33-35 | Corrected: `has_flag` holds exactly for the flags that occur in the input, with or without values. |
| `ArgsParser.HasFlagCorrectedOfValuelessFlag` | src/utils/args_parser.py:33-35 | Corrected: on `-i in.png -v`, `has_flag` is true for both flags and false for the value. |
| `ArgsParser.DuplicateWithoutValuesRaises` | src/utils/args_parser.py:55-62 | `-a x -a` raises a duplicate-flag error, although the second `-a` has no values. |
| `ArgsParser.RepeatOfValuelessFlagAccepted` | src/utils/args_parser.py:55-64 | `-a -a x` is accepted and binds `-a` to `x`. |
| `ArgsParser.SharedListAnswersLastValue` | src/utils/args_parser.py:20-25 | As written: after `in.png -o out.png`, the empty key reads `out.png`. |
| `ArgsParser.ParseWithCopiesBindsOwnValues` | src/utils/args_parser.py:13-27 | Corrected, with each group stored as a copy: the same success and keys as the source, and every stored key bound to the values after its own flag. |
| `ArgsParser.CopiesKeepLeadingValue` | src/utils/args_parser.py:20-25 | Corrected: after `in.png -o out.png`, the empty key keeps `in.png`. |
| `Images.LumaOfBinary` | web_demo.py:31-32 | The gray value of a thresholded pixel is 0 exactly when every channel is 0, and 255 exactly when every channel is 255. |
| `Background.TargetDimensions` | web_demo.py:38-53 | The target size covers the foreground, and one side equals the foreground's. When the overlay is no wider in aspect than the photo, the width is kept and the height follows the overlay's aspect up to the floor. Otherwise the height is the photo's, and the width is the photo's width scaled by the photo's height over that width-scaled height, up to the floor. A zero overlay width, or a zero height that needs rescaling, divides by zero. |
| `Background.CropBottomRight` | web_demo.py:59-65 | The crop has the requested shape, and each cell is the corresponding cell of the bottom-right window. |
| `Background.CropToFullSize` | web_demo.py:59-65 | Cropping an image to its own size returns it unchanged. |
| `Background.BitmaskCases` | web_demo.py:31-32 | The gray bitmask is 255 where every thresholded channel is set, 0 where none is, and strictly between otherwise. |
| `Background.CompositePixel` | web_demo.py:67-73 | A merged pixel is the photo's where all thresholded mask channels are set, and the overlay's where none is. Where they disagree it is the OR of both. |
| `Background.CompositeSelects` | web_demo.py:67-73 | With equal mask channels, merging selects the photo's pixel where the mask exceeds 127, and the overlay's elsewhere. |
| `Background.Composite` | web_demo.py:67-73 | The merged image has the photo's shape and is merged pixel by pixel. |
| `Background.ReplaceBackground` | web_demo.py:24-73 | Errors, in order: an empty mask, then a mask of another size, then division by zero exactly when the overlay has zero width or its scaled height is zero. On success both outputs have the photo's shape, and the first is the crop of the resized overlay. The merged image is the pixel-by-pixel composite of the photo over that crop: equal-channel mask pixels select, and where the channels disagree both parts are OR-ed. |
| `Segmentation.Normalize` | src/human_segmentation_engine.py:40-41 | A normalised sample lies in [0, 1], and 255 times it is the byte. |
| `Segmentation.ToInput` | src/human_segmentation_engine.py:38-42 | The network input has a batch of one 144 x 256 image with samples in [0, 1], each recovering the resized image's byte. |
| `Segmentation.InvertWrapsToComplement` | src/human_segmentation_engine.py:46-53 | A signed NOT of an 8-bit value wrapped back to 8 bits is `255 - v`. |
| `Segmentation.Refine` | src/human_segmentation_engine.py:46-47 | A refined sample is 0 exactly when the confidence exceeds 0.5, and 255 otherwise, 0.5 itself included. |
| `Segmentation.RefinePlane` | src/human_segmentation_engine.py:46-47 | A plane is refined cell by cell and keeps its shape. |
| `Segmentation.GrayToRgb` | src/human_segmentation_engine.py:59 | Replication gives three equal channels holding the gray value. |
| `Segmentation.GrayRoundTrip` | src/human_segmentation_engine.py:59 | Converting the replicated mask back to gray gives the plane again. |
| `Segmentation.Restore` | src/human_segmentation_engine.py:49-54 | A refined plane is resized to the original's height and width. |
| `Segmentation.PerformSegmentation` | src/human_segmentation_engine.py:28-61 | An empty image is rejected. Otherwise the mask has the original's height and width and three equal channels. |
| `Segmentation.MaskFollowsForeground` | src/human_segmentation_engine.py:56-58 | With pass-through resizes and a filter returning its source, the mask is black exactly where the foreground confidence exceeds 0.5 and white elsewhere. So the foreground plane is the one smoothed. |
| `Segmentation.MaskFollowsBackground` | src/human_segmentation_engine.py:46-58 | With pass-through resizes and a filter returning its guide, the mask is black exactly where the background confidence exceeds 0.5 and white elsewhere. So the guide is the background plane, refined and restored like the foreground plane. |
| `Demo.SegmentedReplacementSelects` | web_demo.py:129-134 | Replacing a photo's background with its own segmentation mask fails only by dividing by zero, and otherwise selects the photo or the overlay pixel by pixel. |
| `PosixPath.Basename` | tests/conftest.py:39 | The basename is the longest slash-free suffix. |
| `PosixPath.Dirname` | tests/conftest.py:43 | The dirname is the path up to and including its last slash, with trailing slashes removed unless only slashes remain. It is empty, a run of slashes, or does not end in a slash. A path without slashes has an empty dirname. |
| `PosixPath.Splitext` | tests/conftest.py:40 | Stem and extension concatenate back to the path. The extension is empty, or starts with a dot and has no other dot and no slash. |
| `PosixPath.SplitextAtLastDot` | tests/conftest.py:40 | A slash-free name with a non-dot character before its last dot splits at that dot. |
| `PosixPath.SplitextOfDotFile` | tests/conftest.py:40 | A name with one leading dot and no other dot or slash has no extension. |
| `PosixPath.Join` | tests/conftest.py:49-54 | An absolute second part replaces the first. Otherwise it is appended after the first, with a slash inserted only when the first part is non-empty and does not already end in one. |
| `PosixPath.BasenameOfJoin` | tests/conftest.py:54 | The basename of a directory joined with a slash-free name is that name. |
| `PosixPath.DirnameOfJoin` | tests/conftest.py:54 | The dirname of a dirname-form directory joined with a slash-free name is that directory. |
| `Regression.StateImageNameHasNoSep` | tests/conftest.py:39-42 | The state image name has no slash when the test name has none. |
| `Regression.StateImageLocation` | tests/conftest.py:38-54 | The state image is named `<stem>_<test name>.png`. It lives in the test file's directory without a states folder, and in the folder joined under that directory with one. |
| `Regression.StateImagePath` | tests/conftest.py:45-52 | Computing the path creates the states directory exactly when a non-empty folder is given, and never touches files. |
| `Regression.ReadState` | tests/conftest.py:56-63 | Reading returns the stored image, or fails with the path when none is stored. |
| `Regression.WriteState` | tests/conftest.py:65-67 | Writing creates the states directory, then binds the state path to the image. An empty image is refused and no file changes. Writing keeps every stored image non-empty. |
| `Regression.ReadAfterWrite` | tests/conftest.py:56-67 | Reading after writing a non-empty image returns that image. After a refused write, reading returns what was stored before. |
| `Regression.DifferenceOfPixels` | tests/conftest.py:34-35 | The gray inequality of two pixels is 0 exactly when they are equal. |
| `Regression.Difference` | tests/conftest.py:34-35 | The difference plane is 0 exactly at the pixels where the two images agree. |
| `Regression.CountRow` | tests/conftest.py:36 | The nonzero count of a row is at most its length, and 0 exactly when every sample is 0. |
| `Regression.CountNonZero` | tests/conftest.py:36 | The nonzero count of a plane is 0 exactly when every sample is 0. |
| `Regression.NoDifferenceIffEqual` | tests/conftest.py:34-36 | No differing pixel is counted exactly when the two images are equal. |
| `Regression.Compare` | tests/conftest.py:34-36 | The comparison rejects different shapes, then two empty images, whose empty difference the gray conversion refuses. It passes exactly when the images are equal and non-empty. |
| `Regression.AssertNoRegression` | tests/conftest.py:30-36 | The assertion passes exactly when the stored image equals the new one. Overwrite mode stores the new image first and passes, unless the image is empty and the write raises. Otherwise the files are unchanged, and a missing image fails with its path. |
| `Regression.RuntestSetup` | tests/conftest.py:102-109 | A test is skipped exactly when overwriting is on and it lacks the `image_regression` marker. |
| `Regression.Fixture` | tests/conftest.py:83-99 | The assertion object exists exactly when the marker has an argument. It carries the test's name and path, the marker's first argument as states folder, and the overwrite option. |
| `Regression.OverwriteRunRecords` | tests/conftest.py:102-109 | In an overwrite run every test that runs gets an assertion object. Its assertion passes and records a non-empty new image, and raises on an empty one with the files unchanged. |

## Left out

- I/O is not modelled: image decoding and encoding, Streamlit, pytest's collection, and `sys.argv` (`create_parser_for_cli`). Images arrive as values.
- Background.TargetDimensions: the source computes `int(a * (b / c))` in double precision. The model uses the exact floor of `a * b / c`. The two differ when the float product rounds below an integer, and that can change the error path as well as the size. For a 2 x 1 photo and a 49 x 49 overlay, the model gives (2, 2). In doubles, `49 * (1 / 49)` is `0.9999999999999999`, so the source's height is 0 and it raises `ZeroDivisionError`.
- Background.ReplaceBackground: the values `cv2.resize` interpolates (`INTER_AREA`) are not modelled, only the shape of its result.
- Segmentation.PerformSegmentation: the network, both resizes and the joint bilateral filter are black boxes with shape-only contracts. The pixel values they compute are not modelled.
- Segmentation.Normalize: samples are exact reals, not `float32`.
- Segmentation.Refine: confidences are reals, so a NaN confidence is not modelled. The source maps it to 255, like any value not above 0.5.
- Regression.WriteState: PNG is taken to be lossless, so a written image reads back unchanged. Of `cv2.imwrite`'s failures, only the exception for an empty image is modelled. A `False` return for an unwritable path is not modelled, and the source ignores it.
- Regression.StateImagePath: `os.makedirs` is recorded as adding the one directory. The parents it also creates, and the path normalisation it performs, are not modelled.
- Regression.Fixture: a missing marker or one without arguments is reported as `None`. The source raises `AttributeError` or `IndexError`, which are not distinguished.
- The `image` fixture, `pytest_addoption` and the test modules are not modelled: they load real files and a real network.
- The interpreter wrapper (`src/utils/image_interpreter.py`), `src/image_processor.py`, `src/demo.py` and the model-path loaders are not modelled. The first is the inference black box here, and the others duplicate the engine with I/O.
- The demo's `cv2.addWeighted` highlight is not modelled: it is floating-point blending inside OpenCV.
- The luma of colour conversions is OpenCV's 14-bit fixed-point formula. Only its values at 0 and 255 matter to the proofs.

## Findings

| source | as written | input that shows it | evidently intended | confidence | as-written member | corrected member |
|---|---|---|---|---|---|---|
| src/utils/args_parser.py:20-25 | The open group's list is stored by reference and then cleared and refilled, so every stored key ends up bound to the values of the last group. | `in.png -o out.png`: `get_string("")` answers `out.png` | Each key keeps the values that followed its own flag, so `get_string("")` answers `in.png` | not executed | `ArgsParser.SharedListAnswersLastValue` | `ArgsParser.ParseWithCopiesBindsOwnValues` |
| src/utils/args_parser.py:33-35 | `has_flag` asks for a stored key whose list is empty. A group without values is never stored (lines 61-62), so the answer only says whether the input ends with a flag, through the shared list. | `-i in.png -v`: `has_flag("-v")` is false and `has_flag("-i")` is true | True exactly for the flags on the argument list, as its description says | not executed | `ArgsParser.HasFlagOfValuelessFlag` | `ArgsParser.FlagsSeenExactly` |

=== FILE: args_parser.dfy ===
/** Command-line token grouping.

    Tokens are scanned left to right. A token starting with `-` opens a new
    group; every other token is appended to the open group. The values that
    precede the first flag form the group of the empty key. A group is
    stored under its flag when it is closed, unless it has no values, and
    closing a group whose flag is already stored is an error.

    The source keeps ONE list object for the open group: it stores that
    object (not a copy) under the key, then clears it and appends to it
    again. After the scan every stored key is therefore bound to the same
    list, whose contents are the values of the last group. The table is
    modelled accordingly as a set of keys plus one shared sequence. */
module ArgsParser {
  import opened Wrappers

  /** The key of the values that precede any flag. */
  const NoFlag: string := ""

  const FlagPrefix: char := '-'

  predicate IsFlag(token: string) {
    |token| > 0 && token[0] == FlagPrefix
  }

  /** The `RuntimeError`s the parser raises. */
  datatype Error =
    | DuplicateFlag(flag: string)
    | MissingKey(key: string)
    | ValueCount(count: nat)

  /** The parsed table: `keys` are the dictionary's keys, and every one of
      them is bound to the single list `shared`. */
  datatype Args = Args(keys: set<string>, shared: seq<string>)

  /** The state of the scan: the keys stored so far, the flag of the open
      group and the values collected for it. */
  datatype Scan = Scan(keys: set<string>, flag: string, group: seq<string>)

  /** Closing a group: the duplicate check comes first, then a group
      without values is dropped, otherwise its flag becomes a key. */
  function AppendFlagAndArgs(keys: set<string>, flag: string, group: seq<string>): (r: Result<set<string>, Error>)
    ensures r.Failure? <==> flag in keys
    ensures r.Failure? ==> r.error == DuplicateFlag(flag)
    ensures r.Success? ==> keys <= r.value <= keys + {flag}
    ensures r.Success? ==> (flag in r.value <==> |group| > 0)
  {
    if flag in keys then Failure(DuplicateFlag(flag))
    else if |group| == 0 then Success(keys)
    else Success(keys + {flag})
  }

  /** One iteration of the loop: a flag closes the open group and opens
      its own, any other token joins the open group. */
  function Step(s: Scan, token: string): Result<Scan, Error> {
    if IsFlag(token) then
      var keys :- AppendFlagAndArgs(s.keys, s.flag, s.group);
      Success(Scan(keys, token, []))
    else
      Success(Scan(s.keys, s.flag, s.group + [token]))
  }

  /** The scan after reading every token of `tokens`. */
  function ScanPrefix(tokens: seq<string>): Result<Scan, Error>
    decreases |tokens|
  {
    if |tokens| == 0 then Success(Scan({}, NoFlag, []))
    else
      var s :- ScanPrefix(tokens[..|tokens| - 1]);
      Step(s, tokens[|tokens| - 1])
  }

  /** The constructor: scan every token, then close the last group. */
  function Parse(tokens: seq<string>): Result<Args, Error> {
    var s :- ScanPrefix(tokens);
    var keys :- AppendFlagAndArgs(s.keys, s.flag, s.group);
    Success(Args(keys, s.group))
  }

  /** `is_empty`: no key was stored. */
  function IsEmpty(a: Args): bool {
    a.keys == {}
  }

  /** `has_flag`: the key is stored and its (shared) value list is empty. */
  function HasFlag(a: Args, key: string): bool {
    key in a.keys && |a.shared| == 0
  }

  /** `get_string`, with Python's `None` default as `None`. */
  function GetString(a: Args, key: string, default: Option<string>): (r: Result<string, Error>)
    ensures r.Success? <==> (key in a.keys && |a.shared| == 1) || (key !in a.keys && default.Some?)
    ensures r.Success? && key in a.keys ==> a.shared == [r.value]
    ensures r.Success? && key !in a.keys ==> default == Some(r.value)
    ensures r.Failure? && key !in a.keys ==> r.error == MissingKey(key)
    ensures r.Failure? && key in a.keys ==> r.error == ValueCount(|a.shared|)
  {
    if key !in a.keys then
      if default.None? then Failure(MissingKey(key)) else Success(default.value)
    else if |a.shared| != 1 then Failure(ValueCount(|a.shared|))
    else Success(a.shared[0])
  }

  // ---------------------------------------------------------------------
  // A position-based description of the groups, independent of the scan.
  // Position -1 stands for the implicit group of the empty key; every
  // other group starts at the position of its flag.

  predicate OpensGroup(tokens: seq<string>, i: int) {
    i == -1 || (0 <= i < |tokens| && IsFlag(tokens[i]))
  }

  function FlagAt(tokens: seq<string>, i: int): string
    requires -1 <= i < |tokens|
  {
    if i < 0 then NoFlag else tokens[i]
  }

  /** The group opened at `i` has at least one value: the next token
      exists and is not a flag. */
  predicate HasValues(tokens: seq<string>, i: int) {
    0 <= i + 1 < |tokens| && !IsFlag(tokens[i + 1])
  }

  /** The group opened at `i` is stored when it is closed. */
  predicate Stored(tokens: seq<string>, i: int) {
    OpensGroup(tokens, i) && HasValues(tokens, i)
  }

  /** The start of the last group: the position of the last flag, or -1. */
  function LastFlag(tokens: seq<string>): (r: int)
    ensures -1 <= r < |tokens| && OpensGroup(tokens, r)
    ensures forall k :: r < k < |tokens| ==> !IsFlag(tokens[k])
  {
    if |tokens| == 0 then -1
    else if IsFlag(tokens[|tokens| - 1]) then |tokens| - 1
    else LastFlag(tokens[..|tokens| - 1])
  }

  /** The flags of the groups opened before position `n` that have values. */
  ghost function KeysBefore(tokens: seq<string>, n: int): set<string> {
    set i | -1 <= i < n && i < |tokens| && Stored(tokens, i) :: FlagAt(tokens, i)
  }

  /** Every key that a complete parse stores. */
  ghost function StoredKeys(tokens: seq<string>): set<string> {
    KeysBefore(tokens, |tokens|)
  }

  /** Some flag before position `n` opens a group although an earlier
      group with values already stored it. */
  ghost predicate ReopenedBefore(tokens: seq<string>, n: int) {
    exists j :: 0 <= j < n && j < |tokens| && IsFlag(tokens[j]) && tokens[j] in KeysBefore(tokens, j)
  }

  /** Some flag reopens a stored group. */
  ghost predicate Reopened(tokens: seq<string>) {
    ReopenedBefore(tokens, |tokens|)
  }

  /** Moving the bound past position `n` adds the flag of `n` if that group
      is stored. */
  lemma KeysBeforeStep(tokens: seq<string>, n: int)
    requires -1 <= n < |tokens|
    ensures KeysBefore(tokens, n + 1)
            == KeysBefore(tokens, n) + (if Stored(tokens, n) then {FlagAt(tokens, n)} else {})
  {
    var extra := if Stored(tokens, n) then {FlagAt(tokens, n)} else {};
    forall k | k in KeysBefore(tokens, n + 1)
      ensures k in KeysBefore(tokens, n) + extra
    {
      var i :| -1 <= i < n + 1 && i < |tokens| && Stored(tokens, i) && FlagAt(tokens, i) == k;
      if i < n {
        assert k in KeysBefore(tokens, n);
      }
    }
    forall k | k in KeysBefore(tokens, n) + extra
      ensures k in KeysBefore(tokens, n + 1)
    {
      if k in KeysBefore(tokens, n) {
        var i :| -1 <= i < n && i < |tokens| && Stored(tokens, i) && FlagAt(tokens, i) == k;
        assert -1 <= i < n + 1;
      }
    }
  }

  /** The stored groups opened before position `n` are the same in a
      sequence and in any extension of it, as long as `n` stays below the
      length of the shorter one. */
  lemma KeysBeforeExtend(p: seq<string>, tokens: seq<string>, n: int)
    requires p <= tokens
    requires n < |p|
    ensures KeysBefore(tokens, n) == KeysBefore(p, n)
  {
    forall i | -1 <= i < n
      ensures Stored(tokens, i) == Stored(p, i)
      ensures FlagAt(tokens, i) == FlagAt(p, i)
    {
    }
  }

  lemma ReopenedBeforeExtend(p: seq<string>, tokens: seq<string>, n: int)
    requires p <= tokens
    requires n <= |p|
    ensures ReopenedBefore(tokens, n) == ReopenedBefore(p, n)
  {
    forall j | 0 <= j < n
      ensures KeysBefore(tokens, j) == KeysBefore(p, j)
    {
      KeysBeforeExtend(p, tokens, j);
    }
  }

  /** Between two positions with no stored group in between, the stored
      keys do not change. */
  lemma {:induction false} KeysBeforeUnchanged(tokens: seq<string>, a: int, b: int)
    requires -1 <= a <= b <= |tokens|
    requires forall m :: a <= m < b ==> !Stored(tokens, m)
    ensures KeysBefore(tokens, b) == KeysBefore(tokens, a)
    decreases b - a
  {
    if a < b {
      KeysBeforeStep(tokens, a);
      KeysBeforeUnchanged(tokens, a + 1, b);
    }
  }

  /** Closing the group opened at `l` when the token at `n` is a flag or
      the input ends there: the group is stored exactly when it holds a
      token, and the closing reopens a stored group exactly when its flag
      is already among the keys. */
  lemma CloseGroup(tokens: seq<string>, l: int, n: int)
    requires -1 <= l < n <= |tokens|
    requires OpensGroup(tokens, l)
    requires forall k :: l < k < n ==> !IsFlag(tokens[k])
    requires n == |tokens| || IsFlag(tokens[n])
    ensures KeysBefore(tokens, n)
            == KeysBefore(tokens, l) + (if l + 1 < n then {FlagAt(tokens, l)} else {})
    ensures ReopenedBefore(tokens, n)
            <==> ReopenedBefore(tokens, l) || FlagAt(tokens, l) in KeysBefore(tokens, l)
  {
    KeysBeforeStep(tokens, l);
    assert Stored(tokens, l) <==> l + 1 < n;
    KeysBeforeUnchanged(tokens, l + 1, n);
    if l < 0 {
      assert KeysBefore(tokens, l) == {};
    }
    if ReopenedBefore(tokens, n) {
      var j :| 0 <= j < n && j < |tokens| && IsFlag(tokens[j]) && tokens[j] in KeysBefore(tokens, j);
      if j != l {
        assert j < l;
      }
    }
    if l >= 0 && FlagAt(tokens, l) in KeysBefore(tokens, l) {
      assert IsFlag(tokens[l]);
    }
  }

  /** What the scan holds after reading `tokens`: the keys of the groups
      closed so far, the flag of the last group and the tokens after it; it
      has failed exactly when a flag reopened a stored group before the
      last group. */
  ghost predicate ScanInvariant(tokens: seq<string>) {
    var l := LastFlag(tokens);
    && (ScanPrefix(tokens).Failure? <==> ReopenedBefore(tokens, l))
    && (ScanPrefix(tokens).Success?
        ==> ScanPrefix(tokens).value == Scan(KeysBefore(tokens, l), FlagAt(tokens, l), tokens[l + 1..]))
  }

  /** Unfolding the scan by its last token. */
  lemma ScanSnoc(p: seq<string>, t: string)
    ensures ScanPrefix(p + [t])
            == if ScanPrefix(p).Failure? then Failure(ScanPrefix(p).error)
               else Step(ScanPrefix(p).value, t)
  {
    assert (p + [t])[..|p|] == p;
  }

  lemma ScanValueStep(p: seq<string>, t: string)
    requires ScanInvariant(p)
    requires !IsFlag(t)
    ensures ScanInvariant(p + [t])
  {
    var tokens := p + [t];
    ScanSnoc(p, t);
    assert tokens[..|p|] == p;
    var lp := LastFlag(p);
    assert LastFlag(tokens) == lp;
    KeysBeforeExtend(p, tokens, lp);
    ReopenedBeforeExtend(p, tokens, lp);
    assert tokens[lp + 1..] == p[lp + 1..] + [t];
  }

  lemma ScanFlagStep(p: seq<string>, t: string)
    requires ScanInvariant(p)
    requires IsFlag(t)
    ensures ScanInvariant(p + [t])
  {
    var tokens := p + [t];
    var n := |p|;
    ScanSnoc(p, t);
    assert tokens[..n] == p;
    var lp := LastFlag(p);
    assert LastFlag(tokens) == n;
    KeysBeforeExtend(p, tokens, lp);
    ReopenedBeforeExtend(p, tokens, lp);
    CloseGroup(tokens, lp, n);
    assert |p[lp + 1..]| > 0 <==> lp + 1 < n;
    assert FlagAt(p, lp) == FlagAt(tokens, lp);
    assert tokens[n + 1..] == [];
  }

  lemma {:induction false} ScanState(tokens: seq<string>)
    ensures ScanInvariant(tokens)
    decreases |tokens|
  {
    if |tokens| > 0 {
      var n := |tokens| - 1;
      var p := tokens[..n];
      assert tokens == p + [tokens[n]];
      ScanState(p);
      if IsFlag(tokens[n]) {
        ScanFlagStep(p, tokens[n]);
      } else {
        ScanValueStep(p, tokens[n]);
      }
    }
  }

  /** The parse, described without the scan: it fails exactly when a flag
      reopens a group that was already stored, and otherwise stores the
      flags of the groups that have values, all bound to the tokens after
      the last flag. */
  lemma ParseCharacterization(tokens: seq<string>)
    ensures Parse(tokens).Failure? <==> Reopened(tokens)
    ensures Parse(tokens).Success?
            ==> Parse(tokens).value == Args(StoredKeys(tokens), tokens[LastFlag(tokens) + 1..])
  {
    ScanState(tokens);
    var l := LastFlag(tokens);
    CloseGroup(tokens, l, |tokens|);
  }

  /** A value token belongs to the group opened at the last flag before it
      (or to the empty key's group), and that group is stored. */
  lemma GroupOfValue(tokens: seq<string>, k: int) returns (i: int)
    requires 0 <= k < |tokens| && !IsFlag(tokens[k])
    ensures -1 <= i < k && Stored(tokens, i)
    ensures forall m :: i < m <= k ==> !IsFlag(tokens[m])
  {
    var prefix := tokens[..k];
    i := LastFlag(prefix);
    assert forall m :: i < m < k ==> tokens[m] == prefix[m];
    if i >= 0 {
      assert tokens[i] == prefix[i];
    }
  }

  /** `is_empty()` holds after a parse exactly when no token is a value:
      an input of flags alone is always accepted and stores nothing. */
  lemma EmptyExactlyWithoutValues(tokens: seq<string>)
    ensures (forall k :: 0 <= k < |tokens| ==> IsFlag(tokens[k]))
            <==> Parse(tokens).Success? && IsEmpty(Parse(tokens).value)
  {
    ParseCharacterization(tokens);
    if forall k :: 0 <= k < |tokens| ==> IsFlag(tokens[k]) {
      forall j | 0 <= j <= |tokens|
        ensures KeysBefore(tokens, j) == {}
      {
        forall i | -1 <= i < j && i < |tokens|
          ensures !Stored(tokens, i)
        {
          if i + 1 < |tokens| {
            assert IsFlag(tokens[i + 1]);
          }
        }
      }
      assert !Reopened(tokens);
    } else {
      var k :| 0 <= k < |tokens| && !IsFlag(tokens[k]);
      var i := GroupOfValue(tokens, k);
      assert FlagAt(tokens, i) in StoredKeys(tokens);
    }
  }

  /** Values that precede every flag are stored under the empty key. */
  lemma LeadingValuesUnderEmptyKey(tokens: seq<string>)
    requires |tokens| > 0 && !IsFlag(tokens[0])
    ensures Parse(tokens).Success? ==> NoFlag in Parse(tokens).value.keys
  {
    ParseCharacterization(tokens);
    assert Stored(tokens, -1);
    assert FlagAt(tokens, -1) in StoredKeys(tokens);
  }

  /** Without any flag, all tokens form the single group of the empty key. */
  lemma WithoutFlagsOneGroup(tokens: seq<string>)
    requires forall k :: 0 <= k < |tokens| ==> !IsFlag(tokens[k])
    ensures Parse(tokens) == Success(Args(if |tokens| == 0 then {} else {NoFlag}, tokens))
  {
    ParseCharacterization(tokens);
    assert !Reopened(tokens);
    assert LastFlag(tokens) == -1;
    assert tokens[0..] == tokens;
    var keys: set<string> := if |tokens| == 0 then {} else {NoFlag};
    forall k | k in StoredKeys(tokens)
      ensures k in keys
    {
      var i :| -1 <= i < |tokens| && Stored(tokens, i) && FlagAt(tokens, i) == k;
      assert i == -1;
    }
    if |tokens| > 0 {
      assert Stored(tokens, -1);
      assert FlagAt(tokens, -1) in StoredKeys(tokens);
    }
    assert StoredKeys(tokens) == keys;
  }

  /** The parse fails exactly when some flag occurs twice and the earlier
      occurrence had values. Whether the later occurrence has values does
      not matter, because the duplicate check precedes the empty check;
      and a flag whose earlier occurrences had no values may be repeated,
      because those occurrences were never stored. */
  lemma ParseSucceedsIff(tokens: seq<string>)
    ensures Parse(tokens).Success?
            <==> forall i, j :: 0 <= i < j < |tokens| && IsFlag(tokens[i]) && tokens[i] == tokens[j]
                                ==> !HasValues(tokens, i)
  {
    ParseCharacterization(tokens);
    if Reopened(tokens) {
      var j :| 0 <= j < |tokens| && IsFlag(tokens[j]) && tokens[j] in KeysBefore(tokens, j);
      var i :| -1 <= i < j && i < |tokens| && Stored(tokens, i) && FlagAt(tokens, i) == tokens[j];
      assert i != -1;
      assert IsFlag(tokens[i]) && tokens[i] == tokens[j] && HasValues(tokens, i);
    } else {
      forall i, j | 0 <= i < j < |tokens| && IsFlag(tokens[i]) && tokens[i] == tokens[j]
        ensures !HasValues(tokens, i)
      {
        RepeatAfterValuesReopens(tokens, i, j);
      }
    }
  }

  /** A flag that recurs after a group of its own with values reopens it. */
  lemma RepeatAfterValuesReopens(tokens: seq<string>, i: int, j: int)
    requires 0 <= i < j < |tokens| && IsFlag(tokens[i]) && tokens[i] == tokens[j]
    ensures HasValues(tokens, i) ==> Reopened(tokens)
  {
    if HasValues(tokens, i) {
      assert FlagAt(tokens, i) in KeysBefore(tokens, j);
    }
  }

  /** Because every key shares one list, `get_string` of any stored key
      answers the last token, and only when the last group holds exactly
      one value; a key that is not stored yields the default or an error. */
  lemma GetStringAfterParse(tokens: seq<string>, key: string, default: Option<string>)
    requires Parse(tokens).Success?
    ensures var r := GetString(Parse(tokens).value, key, default);
      && (key in StoredKeys(tokens) ==>
            && (r.Success? <==> LastFlag(tokens) == |tokens| - 2)
            && (r.Success? ==> r.value == tokens[|tokens| - 1]))
      && (key !in StoredKeys(tokens) ==>
            r == if default.Some? then Success(default.value) else Failure(MissingKey(key)))
  {
    ParseCharacterization(tokens);
  }

  /** `has_flag(key)` holds exactly when the key is stored and the input
      ends with a flag, whatever the key's own group held. */
  lemma HasFlagAfterParse(tokens: seq<string>, key: string)
    requires Parse(tokens).Success?
    ensures HasFlag(Parse(tokens).value, key)
            <==> key in StoredKeys(tokens) && LastFlag(tokens) == |tokens| - 1
  {
    ParseCharacterization(tokens);
  }

  /** The aliasing made concrete: after `in.png -o out.png` the empty key
      reads `out.png`. */
  lemma SharedListAnswersLastValue()
    ensures var r := Parse(["in.png", "-o", "out.png"]);
      r.Success? && GetString(r.value, NoFlag, None) == Success("out.png")
  {
    var t: seq<string> := ["in.png", "-o", "out.png"];
    assert t[..2][..1][..0] == [] && t[..2][..1] == ["in.png"] && t[..2] == ["in.png", "-o"];
    assert !IsFlag(t[0]) && IsFlag(t[1]) && !IsFlag(t[2]);
    assert ScanPrefix(t[..2][..1][..0]) == Success(Scan({}, NoFlag, []));
    assert ScanPrefix(t[..2][..1]).Success?;
    assert ScanPrefix(t[..2][..1]).value == Scan({}, NoFlag, ["in.png"]);
    assert ScanPrefix(t[..2]).value == Scan({NoFlag}, "-o", []);
    assert ScanPrefix(t).value == Scan({NoFlag}, "-o", ["out.png"]);
    assert Parse(t).value == Args({NoFlag, "-o"}, ["out.png"]);
  }

  /** A flag with no values is not stored, so `has_flag` denies it, while a
      stored flag whose own value was overwritten through the shared list
      reports as a bare flag. */
  lemma HasFlagOfValuelessFlag()
    ensures var r := Parse(["-i", "in.png", "-v"]);
      r.Success? && HasFlag(r.value, "-i") && !HasFlag(r.value, "-v")
  {
    var t: seq<string> := ["-i", "in.png", "-v"];
    assert t[..2][..1][..0] == [] && t[..2][..1] == ["-i"] && t[..2] == ["-i", "in.png"];
    assert IsFlag(t[0]) && !IsFlag(t[1]) && IsFlag(t[2]);
    assert ScanPrefix(t[..2][..1][..0]) == Success(Scan({}, NoFlag, []));
    assert ScanPrefix(t[..2][..1]).Success?;
    assert ScanPrefix(t[..2][..1]).value == Scan({}, "-i", []);
    assert ScanPrefix(t[..2]).value == Scan({}, "-i", ["in.png"]);
    assert ScanPrefix(t).value == Scan({"-i"}, "-v", []);
    assert Parse(t).value == Args({"-i"}, []);
  }

  /** A repeated flag raises even when its second occurrence has no values. */
  lemma DuplicateWithoutValuesRaises()
    ensures Parse(["-a", "x", "-a"]) == Failure(DuplicateFlag("-a"))
  {
    var t: seq<string> := ["-a", "x", "-a"];
    assert t[..2][..1][..0] == [] && t[..2][..1] == ["-a"] && t[..2] == ["-a", "x"];
    assert IsFlag(t[0]) && !IsFlag(t[1]) && IsFlag(t[2]);
    assert ScanPrefix(t[..2][..1][..0]) == Success(Scan({}, NoFlag, []));
    assert ScanPrefix(t[..2][..1]).Success?;
    assert ScanPrefix(t[..2][..1]).value == Scan({}, "-a", []);
    assert ScanPrefix(t[..2]).value == Scan({}, "-a", ["x"]);
    assert ScanPrefix(t).value == Scan({"-a"}, "-a", []);
  }

  /** Repeating a flag whose earlier occurrence had no values is accepted. */
  lemma RepeatOfValuelessFlagAccepted()
    ensures Parse(["-a", "-a", "x"]) == Success(Args({"-a"}, ["x"]))
  {
    var t: seq<string> := ["-a", "-a", "x"];
    assert t[..2][..1][..0] == [] && t[..2][..1] == ["-a"] && t[..2] == ["-a", "-a"];
    assert IsFlag(t[0]) && IsFlag(t[1]) && !IsFlag(t[2]);
    assert ScanPrefix(t[..2][..1][..0]) == Success(Scan({}, NoFlag, []));
    assert ScanPrefix(t[..2][..1]).Success?;
    assert ScanPrefix(t[..2][..1]).value == Scan({}, "-a", []);
    assert ScanPrefix(t[..2]).value == Scan({}, "-a", []);
    assert ScanPrefix(t).value == Scan({}, "-a", ["x"]);
    assert Parse(t).value == Args({"-a"}, ["x"]);
  }

  // ---------------------------------------------------------------------
  // The table the parser evidently means to build: every key bound to a
  // copy of its own group. Keys and errors are those of `Parse`; only the
  // values differ.

  /** The position of the first flag after `i`, or the end of the input. */
  function NextFlag(tokens: seq<string>, i: int): (r: int)
    requires -1 <= i < |tokens|
    ensures i < r <= |tokens|
    ensures forall k :: i < k < r ==> !IsFlag(tokens[k])
    ensures r < |tokens| ==> IsFlag(tokens[r])
    decreases |tokens| - i
  {
    if i + 1 == |tokens| || IsFlag(tokens[i + 1]) then i + 1 else NextFlag(tokens, i + 1)
  }

  /** The values of the group opened at `i`. */
  function GroupValues(tokens: seq<string>, i: int): seq<string>
    requires -1 <= i < |tokens|
  {
    tokens[i + 1..NextFlag(tokens, i)]
  }

  datatype TableScan = TableScan(table: map<string, seq<string>>, flag: string, group: seq<string>)

  function StepWithCopies(s: TableScan, token: string): Result<TableScan, Error> {
    if IsFlag(token) then
      var table :- StoreCopy(s.table, s.flag, s.group);
      Success(TableScan(table, token, []))
    else
      Success(TableScan(s.table, s.flag, s.group + [token]))
  }

  /** Closing a group with the same checks, but storing its own values. */
  function StoreCopy(table: map<string, seq<string>>, flag: string, group: seq<string>)
    : (r: Result<map<string, seq<string>>, Error>)
    ensures r.Failure? <==> flag in table
    ensures r.Success? ==> r.value.Keys == if |group| == 0 then table.Keys else table.Keys + {flag}
  {
    if flag in table then Failure(DuplicateFlag(flag))
    else if |group| == 0 then Success(table)
    else Success(table[flag := group])
  }

  function ScanWithCopies(tokens: seq<string>): Result<TableScan, Error>
    decreases |tokens|
  {
    if |tokens| == 0 then Success(TableScan(map[], NoFlag, []))
    else
      var s :- ScanWithCopies(tokens[..|tokens| - 1]);
      StepWithCopies(s, tokens[|tokens| - 1])
  }

  function ParseWithCopies(tokens: seq<string>): Result<map<string, seq<string>>, Error> {
    var s :- ScanWithCopies(tokens);
    StoreCopy(s.table, s.flag, s.group)
  }

  /** The copying scan succeeds exactly when the sharing one does, and
      then holds the same keys, open flag and open group. */
  lemma {:induction false} CopiesProject(tokens: seq<string>)
    ensures ScanWithCopies(tokens).Success? == ScanPrefix(tokens).Success?
    ensures ScanWithCopies(tokens).Success? ==>
      var c, s := ScanWithCopies(tokens).value, ScanPrefix(tokens).value;
      c.table.Keys == s.keys && c.flag == s.flag && c.group == s.group
    decreases |tokens|
  {
    if |tokens| > 0 {
      CopiesProject(tokens[..|tokens| - 1]);
    }
  }

  /** What the copying scan holds after reading `tokens`: the open flag
      and group, and every group closed so far bound to its own values. */
  ghost predicate CopiesInvariant(tokens: seq<string>) {
    var l := LastFlag(tokens);
    ScanWithCopies(tokens).Success? ==>
      var c := ScanWithCopies(tokens).value;
      && c.flag == FlagAt(tokens, l)
      && c.group == tokens[l + 1..]
      && c.table.Keys == KeysBefore(tokens, l)
      && forall i :: -1 <= i < l && Stored(tokens, i)
           ==> FlagAt(tokens, i) in c.table && c.table[FlagAt(tokens, i)] == GroupValues(tokens, i)
  }

  lemma NextFlagExtend(p: seq<string>, tokens: seq<string>, i: int)
    requires p <= tokens
    requires -1 <= i < |p|
    requires NextFlag(p, i) < |p|
    ensures NextFlag(tokens, i) == NextFlag(p, i)
    decreases |p| - i
  {
    if !(i + 1 == |p| || IsFlag(p[i + 1])) {
      NextFlagExtend(p, tokens, i + 1);
    }
  }

  /** A group closed before the last flag of `p` keeps its values when a
      token is appended. */
  lemma ClosedGroupUnchanged(p: seq<string>, t: string, i: int)
    requires -1 <= i < LastFlag(p)
    ensures Stored(p + [t], i) == Stored(p, i)
    ensures FlagAt(p + [t], i) == FlagAt(p, i)
    ensures GroupValues(p + [t], i) == GroupValues(p, i)
  {
    assert NextFlag(p, i) <= LastFlag(p);
    NextFlagExtend(p, p + [t], i);
  }

  lemma CopiesValueStep(p: seq<string>, t: string)
    requires CopiesInvariant(p)
    requires !IsFlag(t)
    ensures CopiesInvariant(p + [t])
  {
    var tokens := p + [t];
    CopiesSnoc(p, t);
    assert tokens[..|p|] == p;
    var lp := LastFlag(p);
    assert LastFlag(tokens) == lp;
    KeysBeforeExtend(p, tokens, lp);
    assert tokens[lp + 1..] == p[lp + 1..] + [t];
    forall i | -1 <= i < lp
      ensures Stored(tokens, i) == Stored(p, i)
      ensures FlagAt(tokens, i) == FlagAt(p, i)
      ensures GroupValues(tokens, i) == GroupValues(p, i)
    {
      ClosedGroupUnchanged(p, t, i);
    }
  }

  /** Closing the group at the last flag of `p` when the flag `t` arrives
      binds that group to its own values and leaves the earlier ones. */
  lemma CloseWithCopy(p: seq<string>, t: string, c: TableScan, table: map<string, seq<string>>)
    requires IsFlag(t)
    requires c.group == p[LastFlag(p) + 1..]
    requires forall i :: -1 <= i < LastFlag(p) && Stored(p, i)
               ==> FlagAt(p, i) in c.table && c.table[FlagAt(p, i)] == GroupValues(p, i)
    requires FlagAt(p, LastFlag(p)) !in c.table
    requires table == if |c.group| == 0 then c.table else c.table[FlagAt(p, LastFlag(p)) := c.group]
    ensures forall i :: -1 <= i < |p| && Stored(p + [t], i)
              ==> FlagAt(p + [t], i) in table && table[FlagAt(p + [t], i)] == GroupValues(p + [t], i)
  {
    forall i | -1 <= i < |p| && Stored(p + [t], i)
      ensures FlagAt(p + [t], i) in table && table[FlagAt(p + [t], i)] == GroupValues(p + [t], i)
    {
      CloseWithCopyAt(p, t, c, table, i);
    }
  }

  lemma CloseWithCopyAt(p: seq<string>, t: string, c: TableScan, table: map<string, seq<string>>, i: int)
    requires IsFlag(t)
    requires c.group == p[LastFlag(p) + 1..]
    requires forall i :: -1 <= i < LastFlag(p) && Stored(p, i)
               ==> FlagAt(p, i) in c.table && c.table[FlagAt(p, i)] == GroupValues(p, i)
    requires FlagAt(p, LastFlag(p)) !in c.table
    requires table == if |c.group| == 0 then c.table else c.table[FlagAt(p, LastFlag(p)) := c.group]
    requires -1 <= i < |p| && Stored(p + [t], i)
    ensures FlagAt(p + [t], i) in table && table[FlagAt(p + [t], i)] == GroupValues(p + [t], i)
  {
    var lp := LastFlag(p);
    if i < lp {
      ClosedGroupUnchanged(p, t, i);
      assert Stored(p, i);
      assert FlagAt(p, i) in c.table && c.table[FlagAt(p, i)] == GroupValues(p, i);
      CloseKeepsEarlierGroup(p, t, c, table, i);
    } else if i == lp {
      CloseBindsOwnGroup(p, t, c, table);
    }
  }

  lemma CloseKeepsEarlierGroup(p: seq<string>, t: string, c: TableScan, table: map<string, seq<string>>, i: int)
    requires -1 <= i < LastFlag(p) && Stored(p, i)
    requires FlagAt(p, i) in c.table && c.table[FlagAt(p, i)] == GroupValues(p, i)
    requires FlagAt(p, LastFlag(p)) !in c.table
    requires table == if |c.group| == 0 then c.table else c.table[FlagAt(p, LastFlag(p)) := c.group]
    ensures FlagAt(p + [t], i) in table && table[FlagAt(p + [t], i)] == GroupValues(p + [t], i)
  {
    ClosedGroupUnchanged(p, t, i);
    var g := FlagAt(p, i);
    var f := FlagAt(p, LastFlag(p));
    assert g != f;
    if |c.group| == 0 {
      assert table == c.table;
    } else {
      var u := c.table[f := c.group];
      assert table == u;
      assert u[g] == c.table[g];
    }
  }

  lemma CloseBindsOwnGroup(p: seq<string>, t: string, c: TableScan, table: map<string, seq<string>>)
    requires IsFlag(t)
    requires c.group == p[LastFlag(p) + 1..]
    requires table == if |c.group| == 0 then c.table else c.table[FlagAt(p, LastFlag(p)) := c.group]
    requires Stored(p + [t], LastFlag(p))
    ensures FlagAt(p + [t], LastFlag(p)) in table
    ensures table[FlagAt(p + [t], LastFlag(p))] == GroupValues(p + [t], LastFlag(p))
  {
    var lp := LastFlag(p);
    var tokens := p + [t];
    assert tokens[|p|] == t;
    assert lp + 1 < |p|;
    assert NextFlag(tokens, lp) == |p| by {
      assert tokens[|p|] == t;
      assert forall k :: lp < k < |p| ==> tokens[k] == p[k];
    }
    assert tokens[lp + 1..|p|] == p[lp + 1..];
    assert table[FlagAt(p, lp)] == c.group;
    assert FlagAt(tokens, lp) == FlagAt(p, lp);
  }

  /** Unfolding the copying scan by its last token. */
  lemma CopiesSnoc(p: seq<string>, t: string)
    ensures ScanWithCopies(p + [t])
            == if ScanWithCopies(p).Failure? then Failure(ScanWithCopies(p).error)
               else StepWithCopies(ScanWithCopies(p).value, t)
  {
    assert (p + [t])[..|p|] == p;
  }

  lemma CopiesFlagStep(p: seq<string>, t: string)
    requires CopiesInvariant(p)
    requires IsFlag(t)
    ensures CopiesInvariant(p + [t])
  {
    var tokens := p + [t];
    var n := |p|;
    CopiesSnoc(p, t);
    if ScanWithCopies(tokens).Success? {
      var c := ScanWithCopies(p).value;
      var lp := LastFlag(p);
      var table := StoreCopy(c.table, c.flag, c.group).value;
      assert ScanWithCopies(tokens) == Success(TableScan(table, t, []));
      assert c.flag == FlagAt(p, lp) && c.group == p[lp + 1..] && c.table.Keys == KeysBefore(p, lp);
      CopiesFlagKeys(p, t, c, table);
      assert table == if |c.group| == 0 then c.table else c.table[FlagAt(p, lp) := c.group];
      CloseWithCopy(p, t, c, table);
      assert LastFlag(tokens) == n by {
        assert tokens[n] == t;
      }
      assert tokens[n + 1..] == [];
    }
  }

  /** The keys after a flag closes the last group of `p` are the stored
      flags of `p + [t]`. */
  lemma CopiesFlagKeys(p: seq<string>, t: string, c: TableScan, table: map<string, seq<string>>)
    requires IsFlag(t)
    requires c.flag == FlagAt(p, LastFlag(p)) && c.group == p[LastFlag(p) + 1..]
    requires c.table.Keys == KeysBefore(p, LastFlag(p))
    requires StoreCopy(c.table, c.flag, c.group) == Success(table)
    ensures table.Keys == KeysBefore(p + [t], |p|)
  {
    var tokens := p + [t];
    var n := |p|;
    var lp := LastFlag(p);
    var added := if lp + 1 < n then {FlagAt(tokens, lp)} else {};
    assert KeysBefore(tokens, n) == KeysBefore(tokens, lp) + added by {
      assert tokens[n] == t;
      assert forall k :: 0 <= k < n ==> tokens[k] == p[k];
      CloseGroup(tokens, lp, n);
    }
    assert KeysBefore(tokens, lp) == c.table.Keys by {
      KeysBeforeExtend(p, tokens, lp);
    }
    assert added == if |c.group| == 0 then {} else {c.flag} by {
      assert |c.group| == n - lp - 1;
      assert lp >= 0 ==> tokens[lp] == p[lp];
    }
  }

  lemma {:induction false} CopiesState(tokens: seq<string>)
    ensures CopiesInvariant(tokens)
    decreases |tokens|
  {
    if |tokens| > 0 {
      var n := |tokens| - 1;
      var p := tokens[..n];
      assert tokens == p + [tokens[n]];
      CopiesState(p);
      if IsFlag(tokens[n]) {
        CopiesFlagStep(p, tokens[n]);
      } else {
        CopiesValueStep(p, tokens[n]);
      }
    }
  }

  /** With copies, parsing succeeds exactly when the sharing parse does,
      stores the same keys, and binds every stored key to the values that
      followed its own flag. */
  lemma ParseWithCopiesBindsOwnValues(tokens: seq<string>)
    ensures ParseWithCopies(tokens).Success? == Parse(tokens).Success?
    ensures ParseWithCopies(tokens).Success? ==>
      && ParseWithCopies(tokens).value.Keys == StoredKeys(tokens)
      && forall i :: -1 <= i < |tokens| && Stored(tokens, i)
           ==> FlagAt(tokens, i) in ParseWithCopies(tokens).value
               && ParseWithCopies(tokens).value[FlagAt(tokens, i)] == GroupValues(tokens, i)
  {
    CopiesProject(tokens);
    CopiesState(tokens);
    ParseCharacterization(tokens);
    var l := LastFlag(tokens);
    if ParseWithCopies(tokens).Success? {
      var c := ScanWithCopies(tokens).value;
      var table := ParseWithCopies(tokens).value;
      assert table == if |c.group| == 0 then c.table else c.table[FlagAt(tokens, l) := c.group];
      CloseGroup(tokens, l, |tokens|);
      forall i | -1 <= i < |tokens| && Stored(tokens, i)
        ensures FlagAt(tokens, i) in table && table[FlagAt(tokens, i)] == GroupValues(tokens, i)
      {
        if i == l {
          assert NextFlag(tokens, l) == |tokens|;
        }
      }
    }
  }

  /** The input that exposes the sharing, parsed with copies: the empty key
      keeps `in.png`. */
  lemma CopiesKeepLeadingValue()
    ensures ParseWithCopies(["in.png", "-o", "out.png"]) == Success(map[NoFlag := ["in.png"], "-o" := ["out.png"]])
  {
    var t: seq<string> := ["in.png", "-o", "out.png"];
    assert t[..2][..1][..0] == [] && t[..2][..1] == ["in.png"] && t[..2] == ["in.png", "-o"];
    assert !IsFlag(t[0]) && IsFlag(t[1]) && !IsFlag(t[2]);
    assert ScanWithCopies(t[..2][..1][..0]) == Success(TableScan(map[], NoFlag, []));
    assert ScanWithCopies(t[..2][..1]).Success?;
    assert ScanWithCopies(t[..2][..1]).value == TableScan(map[], NoFlag, ["in.png"]);
    assert ScanWithCopies(t[..2]).value == TableScan(map[NoFlag := ["in.png"]], "-o", []);
    assert ScanWithCopies(t).value == TableScan(map[NoFlag := ["in.png"]], "-o", ["out.png"]);
  }

  // `has_flag` against its description, "the flag was on the arguments
  // list". The code asks for a stored key whose list is empty, but a group
  // without values is never stored: with the shared list the answer only
  // says whether the input ends with a flag, and with copies it is never
  // true.

  /** With a copy per key, every stored list is non-empty, so the test
      `len(args[key]) == 0` of `has_flag` never holds. */
  lemma CopiedGroupsAreNonEmpty(tokens: seq<string>)
    ensures ParseWithCopies(tokens).Success? ==>
      forall k :: k in ParseWithCopies(tokens).value ==> |ParseWithCopies(tokens).value[k]| > 0
  {
    ParseWithCopiesBindsOwnValues(tokens);
    if ParseWithCopies(tokens).Success? {
      var table := ParseWithCopies(tokens).value;
      forall k | k in table
        ensures |table[k]| > 0
      {
        assert k in KeysBefore(tokens, |tokens|);
        var i :| -1 <= i < |tokens| && Stored(tokens, i) && FlagAt(tokens, i) == k;
        assert NextFlag(tokens, i) > i + 1;
      }
    }
  }

  /** The flags that occur in the input, collected token by token. */
  function FlagsSeen(tokens: seq<string>): set<string>
    decreases |tokens|
  {
    if |tokens| == 0 then {}
    else
      var seen := FlagsSeen(tokens[..|tokens| - 1]);
      var t := tokens[|tokens| - 1];
      if IsFlag(t) then seen + {t} else seen
  }

  /** The corrected `has_flag`: the key was among the flags read. */
  function HasFlagCorrected(tokens: seq<string>, key: string): bool {
    key in FlagsSeen(tokens)
  }

  /** The corrected `has_flag` holds exactly for the flags on the argument
      list, whether or not values followed them. */
  lemma {:induction false} FlagsSeenExactly(tokens: seq<string>, key: string)
    ensures HasFlagCorrected(tokens, key) <==> IsFlag(key) && exists i :: 0 <= i < |tokens| && tokens[i] == key
    decreases |tokens|
  {
    if |tokens| > 0 {
      var n := |tokens| - 1;
      var p := tokens[..n];
      FlagsSeenExactly(p, key);
      if IsFlag(key) && exists i :: 0 <= i < |tokens| && tokens[i] == key {
        var i :| 0 <= i < |tokens| && tokens[i] == key;
        if i < n {
          assert p[i] == key;
        }
      }
      if exists i :: 0 <= i < |p| && p[i] == key {
        var i :| 0 <= i < |p| && p[i] == key;
        assert tokens[i] == key;
      }
    }
  }

  /** On `-i in.png -v`, the corrected `has_flag` accepts both flags,
      including the value-less `-v` the source denies, and rejects the
      value. */
  lemma HasFlagCorrectedOfValuelessFlag()
    ensures var t := ["-i", "in.png", "-v"];
      HasFlagCorrected(t, "-i") && HasFlagCorrected(t, "-v") && !HasFlagCorrected(t, "in.png")
  {
    var t: seq<string> := ["-i", "in.png", "-v"];
    assert t[0] == "-i" && t[2] == "-v";
    FlagsSeenExactly(t, "-i");
    FlagsSeenExactly(t, "-v");
    FlagsSeenExactly(t, "in.png");
  }
}

=== FILE: background.dfy ===
/** Background replacement: scale a background image so that it covers the
    foreground image, crop its bottom-right foreground-sized window, and
    composite the foreground over it where the thresholded mask is set.

    The sizes are computed in the source as `int(a * (b / c))` on floats;
    here they are exact rational floors `a * b / c` on naturals. Resizing
    is a black box that returns exactly the requested dimensions. */
module Background {
  import opened Wrappers
  import opened Images

  /** `cv2.threshold(mask, 127, 255, cv2.THRESH_BINARY)`. */
  const MaskThreshold: Byte := 127

  /** `EmptyMask` is OpenCV's threshold rejecting an empty mask;
      `SizeMismatch` is OpenCV's masked AND rejecting a mask whose size
      differs from the image's; `ZeroDivision` is Python's
      `ZeroDivisionError` in the size computation. */
  datatype Error = EmptyMask | SizeMismatch | ZeroDivision

  /** Target size for the resize, in OpenCV's (width, height) order. */
  datatype Dimensions = Dimensions(width: nat, height: nat)

  // Arithmetic helpers for the floors.

  lemma MulMonotone(a: nat, b: nat, c: nat)
    requires b <= c
    ensures a * b <= a * c
  {
  }

  lemma DivAtLeast(a: nat, b: nat, d: nat)
    requires d > 0 && a >= b * d
    ensures a / d >= b
  {
    if a / d < b {
      MulMonotone(d, a / d + 1, b);
    }
  }

  lemma DivIsZero(a: nat, d: nat)
    requires d > 0
    ensures a / d == 0 <==> a < d
  {
    if a >= d {
      DivAtLeast(a, 1, d);
    }
  }

  lemma FloorBounds(a: nat, d: nat)
    requires d > 0
    ensures (a / d) * d <= a < (a / d + 1) * d
  {
  }

  lemma DivBelow(a: nat, b: nat, d: nat)
    requires d > 0
    ensures a / d < b <==> a < b * d
  {
    if a / d >= b {
      MulMonotone(d, b, a / d);
      FloorBounds(a, d);
    } else if a >= b * d {
      DivAtLeast(a, b, d);
    }
  }

  /** The size the background is resized to. The width is first set to the
      foreground's, with the height following the background's aspect
      ratio; if that height falls short of the foreground's, the height is
      set to the foreground's and the width scaled by the same factor. A
      zero background width, or a width-scaled height of zero that needs
      scaling, divides by zero. */
  function TargetDimensions(fgHeight: nat, fgWidth: nat, bgHeight: nat, bgWidth: nat): (r: Result<Dimensions, Error>)
    ensures r.Failure? <==> bgWidth == 0 || (bgHeight * fgWidth < bgWidth && fgHeight > 0)
    ensures r.Success? ==> r.value.width >= fgWidth && r.value.height >= fgHeight
    ensures r.Success? ==> r.value.width == fgWidth || r.value.height == fgHeight
    ensures r.Success? && bgHeight * fgWidth >= fgHeight * bgWidth
            ==> r.value.width == fgWidth
                && r.value.height * bgWidth <= bgHeight * fgWidth < (r.value.height + 1) * bgWidth
    ensures r.Success? && bgHeight * fgWidth < fgHeight * bgWidth
            ==> r.value.height == fgHeight
                && var h := bgHeight * fgWidth / bgWidth;
                   h > 0 && r.value.width * h <= fgWidth * fgHeight < (r.value.width + 1) * h
  {
    if bgWidth == 0 then Failure(ZeroDivision)
    else
      var height := bgHeight * fgWidth / bgWidth;
      DivIsZero(bgHeight * fgWidth, bgWidth);
      FloorBounds(bgHeight * fgWidth, bgWidth);
      DivBelow(bgHeight * fgWidth, fgHeight, bgWidth);
      if height < fgHeight then
        if height == 0 then Failure(ZeroDivision)
        else
          MulMonotone(fgWidth, height, fgHeight);
          DivAtLeast(fgWidth * fgHeight, fgWidth, height);
          FloorBounds(fgWidth * fgHeight, height);
          var width := fgWidth * fgHeight / height;
          Success(Dimensions(width, fgHeight))
      else
        Success(Dimensions(fgWidth, height))
  }

  /** `img[H - h : H, W - w : W]`: the bottom-right window of shape (h, w). */
  function CropBottomRight(img: Image, h: nat, w: nat): (r: Image)
    requires img.Valid() && h <= img.height && w <= img.width
    ensures Fits(r, h, w)
    ensures forall i, j :: 0 <= i < h && 0 <= j < w
              ==> r.At(i, j) == img.At(img.height - h + i, img.width - w + j)
  {
    Grid(h, w, seq(h, i requires 0 <= i < h => img.rows[img.height - h + i][img.width - w..]))
  }

  /** Cropping an image to its own size leaves it unchanged. */
  lemma CropToFullSize(img: Image)
    requires img.Valid()
    ensures CropBottomRight(img, img.height, img.width) == img
  {
    GridsEqual(CropBottomRight(img, img.height, img.width), img);
  }

  /** `cv2.threshold(_, 127, 255, THRESH_BINARY)` on one sample. */
  function Binarize(c: Byte): (r: Byte)
    ensures IsBinary(r)
  {
    if c > MaskThreshold then 255 else 0
  }

  function BinarizePx(m: Rgb): Rgb {
    Px(Binarize(m.c0), Binarize(m.c1), Binarize(m.c2))
  }

  /** The single-channel bitmask: the thresholded mask converted to gray. */
  function Bitmask(m: Rgb): Byte {
    Rgb2Gray(BinarizePx(m))
  }

  /** `cv2.bitwise_and(p, p, mask=m)`: the pixel where the mask is nonzero,
      black elsewhere. */
  function KeepWhere(p: Rgb, m: Byte): Rgb {
    if m != 0 then p else Black
  }

  /** `cv2.bitwise_not` on an 8-bit sample. */
  function Not(b: Byte): Byte {
    255 - b
  }

  /** The gray bitmask of a thresholded pixel is 255 when every channel is
      set, 0 when none is, and strictly in between otherwise. */
  lemma BitmaskCases(m: Rgb)
    ensures BinarizePx(m) == White ==> Bitmask(m) == 255
    ensures BinarizePx(m) == Black ==> Bitmask(m) == 0
    ensures BinarizePx(m) != White && BinarizePx(m) != Black ==> 0 < Bitmask(m) < 255
  {
    var t := BinarizePx(m);
    if t == White {
      assert Bitmask(m) == Luma(255, 255, 255);
    } else if t == Black {
      assert Bitmask(m) == Luma(0, 0, 0);
    } else {
      LumaOfBinary(t.c0, t.c1, t.c2);
    }
  }

  /** One output pixel: the masked foreground OR-ed with the background
      masked by the inverted bitmask. Where all three thresholded channels
      are set it is the foreground pixel, where none is set it is the
      background pixel, and where they disagree the gray bitmask lies
      strictly between 0 and 255, so both parts survive and are OR-ed. */
  function CompositePixel(fg: Rgb, bg: Rgb, m: Rgb): (r: Rgb)
    ensures BinarizePx(m) == White ==> r == fg
    ensures BinarizePx(m) == Black ==> r == bg
    ensures BinarizePx(m) != White && BinarizePx(m) != Black ==> r == OrPx(fg, bg)
  {
    BitmaskCases(m);
    var b := Bitmask(m);
    OrPx(KeepWhere(fg, b), KeepWhere(bg, Not(b)))
  }

  /** When the mask's channels agree, compositing is a per-pixel select on
      the mask's `> 127` test. */
  lemma CompositeSelects(fg: Rgb, bg: Rgb, m: Rgb)
    requires SameChannels(m)
    ensures CompositePixel(fg, bg, m) == if m.c0 > MaskThreshold then fg else bg
  {
  }

  /** The composite of two images of one shape under a mask of that shape. */
  function Composite(fg: Image, bg: Image, mask: Image): (r: Image)
    requires fg.Valid() && Fits(bg, fg.height, fg.width) && Fits(mask, fg.height, fg.width)
    ensures Fits(r, fg.height, fg.width)
    ensures forall i, j :: 0 <= i < fg.height && 0 <= j < fg.width
              ==> r.At(i, j) == CompositePixel(fg.At(i, j), bg.At(i, j), mask.At(i, j))
  {
    Tabulate(fg.height, fg.width,
      (i, j) => if 0 <= i < fg.height && 0 <= j < fg.width
                then CompositePixel(fg.At(i, j), bg.At(i, j), mask.At(i, j))
                else Black)
  }

  /** `replace_background`: returns the cropped background and the merged
      image. An empty mask is rejected first, then a mask of another size
      than the foreground; with the mask accepted the foreground is not
      empty, and only the size computation can still fail. */
  function ReplaceBackground(fg: Image, bg: Image, mask: Image, resize: ImageResizer)
    : (r: Result<(Image, Image), Error>)
    requires fg.Valid() && bg.Valid() && mask.Valid()
    ensures r == Failure(EmptyMask) <==> IsEmpty(mask)
    ensures r == Failure(SizeMismatch)
            <==> !IsEmpty(mask) && (mask.height != fg.height || mask.width != fg.width)
    ensures r == Failure(ZeroDivision)
            <==> !IsEmpty(mask) && mask.height == fg.height && mask.width == fg.width
                 && (bg.width == 0 || bg.height * fg.width < bg.width)
    ensures r.Success? ==> Fits(r.value.0, fg.height, fg.width) && Fits(r.value.1, fg.height, fg.width)
    ensures r.Success? ==>
      var d := TargetDimensions(fg.height, fg.width, bg.height, bg.width).value;
      r.value.0 == CropBottomRight(resize(bg, d.width, d.height), fg.height, fg.width)
    ensures r.Success? ==> Fits(mask, fg.height, fg.width) && r.value.1 == Composite(fg, r.value.0, mask)
    ensures r.Success? ==>
      forall i, j :: 0 <= i < fg.height && 0 <= j < fg.width && SameChannels(mask.At(i, j))
        ==> r.value.1.At(i, j) == if mask.At(i, j).c0 > MaskThreshold then fg.At(i, j) else r.value.0.At(i, j)
  {
    if IsEmpty(mask) then Failure(EmptyMask)
    else if mask.height != fg.height || mask.width != fg.width then Failure(SizeMismatch)
    else
      var d :- TargetDimensions(fg.height, fg.width, bg.height, bg.width);
      var resized := resize(bg, d.width, d.height);
      var cropped := CropBottomRight(resized, fg.height, fg.width);
      var merged := Composite(fg, cropped, mask);
      assert forall i, j :: 0 <= i < fg.height && 0 <= j < fg.width && SameChannels(mask.At(i, j))
        ==> merged.At(i, j) == if mask.At(i, j).c0 > MaskThreshold then fg.At(i, j) else cropped.At(i, j) by {
        forall i, j | 0 <= i < fg.height && 0 <= j < fg.width && SameChannels(mask.At(i, j)) {
          CompositeSelects(fg.At(i, j), cropped.At(i, j), mask.At(i, j));
        }
      }
      Success((cropped, merged))
  }
}

=== FILE: demo.dfy ===
/** The web demo's use of the two operations: the segmentation mask of the
    uploaded image is handed to background replacement together with the
    chosen overlay. */
module Demo {
  import opened Wrappers
  import opened Images
  import Background
  import Segmentation

  /** The mask from segmentation of a non-empty image has the image's
      shape and equal channels, so replacing the background can fail only
      by dividing by zero, and where it succeeds each merged pixel is the original pixel
      where the mask is above 127 and the cropped overlay pixel elsewhere. */
  lemma SegmentedReplacementSelects(img: Image, overlay: Image, k: Segmentation.Collaborators, resize: ImageResizer)
    requires img.Valid() && overlay.Valid()
    requires img.height > 0 && img.width > 0
    ensures Segmentation.PerformSegmentation(img, k).Some?
    ensures var mask := Segmentation.PerformSegmentation(img, k).value;
      var r := Background.ReplaceBackground(img, overlay, mask, resize);
      (r.Failure? <==> overlay.width == 0 || overlay.height * img.width < overlay.width)
      && (r.Success? ==> forall i, j :: 0 <= i < img.height && 0 <= j < img.width ==>
            r.value.1.At(i, j) == if mask.At(i, j).c0 > Background.MaskThreshold then img.At(i, j) else r.value.0.At(i, j))
  {
  }
}

=== FILE: images.dfy ===
/** Pixel grids, the 8-bit sample type, the OpenCV colour conversions the
    program relies on, and the shape-only contracts of the image operations
    that are treated as black boxes (resizing, inference, filtering). */
module Images {

  /** One unsigned 8-bit sample (numpy `uint8`). */
  type Byte = x: int | 0 <= x < 256

  /** A three-channel pixel; the channel order is given by the caller. */
  datatype Px<T> = Px(c0: T, c1: T, c2: T)

  type Rgb = Px<Byte>

  const Black: Rgb := Px(0, 0, 0)
  const White: Rgb := Px(255, 255, 255)

  /** A row-major array of `height` rows of `width` cells each. The
      dimensions are kept apart from the rows so that a zero-row grid
      still has a width, as a numpy shape does. */
  datatype Grid<T> = Grid(height: nat, width: nat, rows: seq<seq<T>>) {

    predicate Valid() {
      |rows| == height && forall i :: 0 <= i < height ==> |rows[i]| == width
    }

    function At(i: int, j: int): T
      requires Valid() && 0 <= i < height && 0 <= j < width
    {
      rows[i][j]
    }
  }

  /** `g.shape[:2] == (h, w)` for a well-formed grid. */
  predicate Fits<T>(g: Grid<T>, h: nat, w: nat) {
    g.Valid() && g.height == h && g.width == w
  }

  /** A grid without cells, which OpenCV treats as an empty matrix. */
  predicate IsEmpty<T>(g: Grid<T>) {
    g.height == 0 || g.width == 0
  }

  /** An image (height, width, 3) and a single-channel plane (height, width). */
  type Image = Grid<Rgb>
  type Plane = Grid<Byte>

  /** The grid of shape (h, w) whose cell (i, j) is f(i, j). */
  function Tabulate<T>(h: nat, w: nat, f: (int, int) -> T): (g: Grid<T>)
    ensures Fits(g, h, w)
    ensures forall i, j :: 0 <= i < h && 0 <= j < w ==> g.At(i, j) == f(i, j)
  {
    Grid(h, w, seq(h, i => seq(w, j => f(i, j))))
  }

  /** Two well-formed grids of one shape that agree on every cell are the
      same value. */
  lemma GridsEqual<T>(a: Grid<T>, b: Grid<T>)
    requires a.Valid() && b.Valid()
    requires a.height == b.height && a.width == b.width
    requires forall i, j :: 0 <= i < a.height && 0 <= j < a.width ==> a.At(i, j) == b.At(i, j)
    ensures a == b
  {
    assert forall i :: 0 <= i < a.height ==> a.rows[i] == b.rows[i] by {
      forall i | 0 <= i < a.height
        ensures a.rows[i] == b.rows[i]
      {
        assert forall j :: 0 <= j < a.width ==> a.rows[i][j] == a.At(i, j);
      }
    }
  }

  /** OpenCV's 8-bit luma: 0.299 R + 0.587 G + 0.114 B in 14-bit fixed
      point, rounded half up. */
  function Luma(r: Byte, g: Byte, b: Byte): Byte {
    (r * 4899 + g * 9617 + b * 1868 + 8192) / 16384
  }

  /** `cv2.cvtColor(_, cv2.COLOR_RGB2GRAY)` on one pixel. */
  function Rgb2Gray(p: Rgb): Byte {
    Luma(p.c0, p.c1, p.c2)
  }

  /** `cv2.cvtColor(_, cv2.COLOR_BGR2GRAY)` on one pixel. */
  function Bgr2Gray(p: Rgb): Byte {
    Luma(p.c2, p.c1, p.c0)
  }

  /** A sample that is either 0 or 255, as the outputs of a binary threshold
      or of a `CMP_NE` comparison are. */
  predicate IsBinary(x: Byte) {
    x == 0 || x == 255
  }

  predicate SameChannels(p: Rgb) {
    p.c0 == p.c1 == p.c2
  }

  /** On a pixel with three equal channels the luma is that channel. */
  lemma LumaOfGray(v: Byte)
    ensures Luma(v, v, v) == v
  {
  }

  /** On a pixel of 0/255 samples the luma is 0 exactly when every channel
      is 0, and 255 exactly when every channel is 255; every mixed pixel
      lands strictly in between. */
  lemma LumaOfBinary(r: Byte, g: Byte, b: Byte)
    requires IsBinary(r) && IsBinary(g) && IsBinary(b)
    ensures Luma(r, g, b) == 0 <==> r == 0 && g == 0 && b == 0
    ensures Luma(r, g, b) == 255 <==> r == 255 && g == 255 && b == 255
  {
    if r == 0 {
      if g == 0 {
        if b == 0 { assert Luma(r, g, b) == 0; } else { assert Luma(r, g, b) == 29; }
      } else {
        if b == 0 { assert Luma(r, g, b) == 150; } else { assert Luma(r, g, b) == 179; }
      }
    } else {
      if g == 0 {
        if b == 0 { assert Luma(r, g, b) == 76; } else { assert Luma(r, g, b) == 105; }
      } else {
        if b == 0 { assert Luma(r, g, b) == 226; } else { assert Luma(r, g, b) == 255; }
      }
    }
  }

  /** Bitwise OR of two samples (`cv2.bitwise_or`). */
  function Or(a: Byte, b: Byte): Byte {
    ((a as bv8) | (b as bv8)) as int
  }

  /** Zero is the identity of `Or` on either side. */
  lemma OrZero(a: Byte)
    ensures Or(a, 0) == a && Or(0, a) == a
  {
    assert (0 as bv8) == 0;
    assert (a as bv8) | 0 == a as bv8;
    assert 0 | (a as bv8) == a as bv8;
  }

  function OrPx(a: Rgb, b: Rgb): (r: Rgb)
    ensures b == Black ==> r == a
    ensures a == Black ==> r == b
  {
    OrZero(a.c0); OrZero(a.c1); OrZero(a.c2);
    OrZero(b.c0); OrZero(b.c1); OrZero(b.c2);
    Px(Or(a.c0, b.c0), Or(a.c1, b.c1), Or(a.c2, b.c2))
  }

  /** `cv2.resize(image, (w, h))` on a colour image: only the shape of the
      result is known, the interpolated values are not modelled. */
  type ImageResizer = f: (Image, nat, nat) -> Image
    | forall g: Image, w: nat, h: nat :: Fits(f(g, w, h), h, w)
    witness (g: Image, w: nat, h: nat) => Tabulate(h, w, (i, j) => Black)

  /** `cv2.resize(plane, (w, h))` on a single-channel plane. */
  type PlaneResizer = f: (Plane, nat, nat) -> Plane
    | forall g: Plane, w: nat, h: nat :: Fits(f(g, w, h), h, w)
    witness (g: Plane, w: nat, h: nat) => Tabulate(h, w, (i, j) => 0)
}

=== FILE: posix_path.dfy ===
/** The four POSIX path operations the regression harness uses, with the
    semantics of Python's `posixpath`: `basename`, `dirname`, `splitext`
    and two-argument `join`. Paths are plain strings; nothing touches a
    file system. */
module PosixPath {

  const Sep: char := '/'
  const ExtSep: char := '.'

  /** `s.rfind(c)`: the last index holding `c`, or -1. */
  function RFind(s: string, c: char): (k: int)
    ensures -1 <= k < |s|
    ensures k >= 0 ==> s[k] == c
    ensures forall i :: k < i < |s| ==> s[i] != c
  {
    if |s| == 0 then -1
    else if s[|s| - 1] == c then |s| - 1
    else RFind(s[..|s| - 1], c)
  }

  /** An index holding `c` with no `c` after it is what `rfind` returns. */
  lemma RFindAt(s: string, c: char, k: nat)
    requires k < |s| && s[k] == c
    requires forall i :: k < i < |s| ==> s[i] != c
    ensures RFind(s, c) == k
  {
  }

  predicate AllSlashes(s: string) {
    forall i :: 0 <= i < |s| ==> s[i] == Sep
  }

  predicate HasNoSep(s: string) {
    forall i :: 0 <= i < |s| ==> s[i] != Sep
  }

  /** `s.rstrip('/')`: the longest prefix not ending in a slash. */
  function RStripSlashes(s: string): (r: string)
    ensures r <= s
    ensures r == [] || r[|r| - 1] != Sep
    ensures forall i :: |r| <= i < |s| ==> s[i] == Sep
  {
    if |s| == 0 || s[|s| - 1] != Sep then s
    else RStripSlashes(s[..|s| - 1])
  }

  /** `posixpath.basename`: everything after the last slash. */
  function Basename(p: string): (r: string)
    ensures HasNoSep(r)
    ensures |r| <= |p| && r == p[|p| - |r|..]
    ensures |r| < |p| ==> p[|p| - |r| - 1] == Sep
    ensures HasNoSep(p) ==> r == p
  {
    p[RFind(p, Sep) + 1..]
  }

  /** The forms `dirname` produces: empty, all slashes (a root), or not
      ending in a slash. */
  predicate DirForm(d: string) {
    d == [] || AllSlashes(d) || d[|d| - 1] != Sep
  }

  /** `posixpath.dirname`: everything up to the last slash, with trailing
      slashes removed unless it consists of slashes only. */
  function Dirname(p: string): (r: string)
    ensures DirForm(r)
    ensures r <= p
    ensures HasNoSep(p) ==> r == []
    ensures var head := p[..RFind(p, Sep) + 1];
      r <= head && (forall i :: |r| <= i < |head| ==> head[i] == Sep) && (AllSlashes(head) ==> r == head)
  {
    var head := p[..RFind(p, Sep) + 1];
    if head != [] && !AllSlashes(head) then RStripSlashes(head) else head
  }

  /** The stem keeps at least one character other than a dot before the
      extension, so leading dots (`.bashrc`) do not start one. */
  predicate HasNonDot(p: string, from: int, to: int)
    requires 0 <= from && to <= |p|
  {
    exists k :: from <= k < to && p[k] != ExtSep
  }

  /** `posixpath.splitext`: split at the last dot of the final component,
      unless only dots precede it in that component. */
  function Splitext(p: string): (r: (string, string))
    ensures r.0 + r.1 == p
    ensures r.1 == [] || (r.1[0] == ExtSep && HasNoSep(r.1))
    ensures forall k :: 0 < k < |r.1| ==> r.1[k] != ExtSep
  {
    var sep := RFind(p, Sep);
    var dot := RFind(p, ExtSep);
    if dot > sep && HasNonDot(p, sep + 1, dot) then
      assert p[..dot] + p[dot..] == p;
      (p[..dot], p[dot..])
    else
      (p, [])
  }

  predicate HasNoDot(s: string) {
    forall i :: 0 <= i < |s| ==> s[i] != ExtSep
  }

  /** A slash-free name with a non-dot character before its last dot is
      split there: the extension is the dot and what follows it. */
  lemma SplitextAtLastDot(stem: string, x: string)
    requires HasNoSep(stem) && HasNonDot(stem, 0, |stem|)
    requires HasNoSep(x) && HasNoDot(x)
    ensures Splitext(stem + [ExtSep] + x) == (stem, [ExtSep] + x)
  {
    var p := stem + [ExtSep] + x;
    assert forall i :: 0 <= i < |p| ==> p[i] != Sep;
    assert RFind(p, Sep) == -1;
    assert forall i :: |stem| < i < |p| ==> p[i] == x[i - |stem| - 1];
    RFindAt(p, ExtSep, |stem|);
    var k :| 0 <= k < |stem| && stem[k] != ExtSep;
    assert p[k] == stem[k];
    assert p[..|stem|] == stem;
    assert p[|stem|..] == [ExtSep] + x;
  }

  /** A name made of one leading dot and no other dot or slash (`.bashrc`)
      has no extension. */
  lemma SplitextOfDotFile(x: string)
    requires HasNoSep(x) && HasNoDot(x)
    ensures Splitext([ExtSep] + x) == ([ExtSep] + x, [])
  {
    var p := [ExtSep] + x;
    assert forall i :: 0 <= i < |p| ==> p[i] != Sep;
    assert RFind(p, Sep) == -1;
    assert forall i :: 0 < i < |p| ==> p[i] == x[i - 1];
    RFindAt(p, ExtSep, 0);
  }

  /** Concatenating slash-free strings gives a slash-free string. */
  lemma NoSepConcat(a: string, b: string)
    requires HasNoSep(a) && HasNoSep(b)
    ensures HasNoSep(a + b)
  {
    assert forall k :: |a| <= k < |a + b| ==> (a + b)[k] == b[k - |a|];
  }

  /** The stem of a slash-free name is slash-free. */
  lemma StemHasNoSep(p: string)
    requires HasNoSep(p)
    ensures HasNoSep(Splitext(p).0)
  {
    var stem := Splitext(p).0;
    assert forall k :: 0 <= k < |stem| ==> stem[k] == p[k];
  }

  /** `posixpath.join(a, b)`: an absolute `b` replaces `a`; otherwise `b`
      is appended, with a slash unless `a` is empty or already ends in one. */
  function Join(a: string, b: string): (r: string)
    ensures |b| > 0 && b[0] == Sep ==> r == b
    ensures !(|b| > 0 && b[0] == Sep) ==>
              |r| == |a| + |b| + (if a == [] || a[|a| - 1] == Sep then 0 else 1)
              && a <= r && r[|r| - |b|..] == b
              && (|r| > |b| ==> r[|r| - |b| - 1] == Sep)
  {
    if |b| > 0 && b[0] == Sep then b
    else if a == [] || a[|a| - 1] == Sep then a + b
    else a + [Sep] + b
  }

  /** In a joined path whose last component has no slash, the last slash
      sits just before that component, if there is one. */
  lemma LastSepOfJoin(d: string, n: string)
    requires HasNoSep(n)
    ensures var j := Join(d, n);
      RFind(j, Sep) == |j| - |n| - 1 && (|j| == |n| ==> j == n)
  {
    var j := Join(d, n);
    assert forall i :: |j| - |n| <= i < |j| ==> j[i] == n[i - (|j| - |n|)];
    if |j| > |n| {
      assert j[|j| - |n| - 1] == Sep;
    }
  }

  /** Joining a name without slashes to a directory and taking the
      basename gives the name back. */
  lemma BasenameOfJoin(d: string, n: string)
    requires HasNoSep(n)
    ensures Basename(Join(d, n)) == n
  {
    LastSepOfJoin(d, n);
  }

  /** Removing trailing slashes ignores one more slash at the end. */
  lemma RStripSlashAppended(s: string)
    ensures RStripSlashes(s + [Sep]) == RStripSlashes(s)
  {
    assert (s + [Sep])[..|s|] == s;
  }

  /** Joining a name without slashes to a directory in `dirname` form and
      taking the dirname gives the directory back. */
  lemma DirnameOfJoin(d: string, n: string)
    requires DirForm(d) && HasNoSep(n)
    ensures Dirname(Join(d, n)) == d
  {
    var j := Join(d, n);
    LastSepOfJoin(d, n);
    var head := j[..RFind(j, Sep) + 1];
    if d == [] {
      assert head == [];
    } else if d[|d| - 1] == Sep {
      assert j == d + n;
      assert head == d;
      assert AllSlashes(d);
    } else {
      assert j == d + [Sep] + n;
      assert head == d + [Sep];
      assert head[|d| - 1] != Sep;
      RStripSlashAppended(d);
    }
  }
}

=== FILE: regression.dfy ===
/** The image-regression harness of the test suite: where a test's golden
    image lives, how it is read and written, when a new result counts as a
    regression, and which tests an overwrite run skips.

    The file system is a map from path to decoded image plus the set of
    directories `os.makedirs` has created. PNG encoding is lossless, so an
    image written and read back is the same image. */
module Regression {
  import opened Wrappers
  import opened Images
  import opened PosixPath

  /** The pytest marker that opts a test into regression checking. */
  const RegressionMarker: string := "image_regression"
  const StateExtension: string := ".png"

  datatype FileSystem = FileSystem(files: map<string, Image>, dirs: set<string>)

  /** Every stored image is well formed and, having been written by
      `cv2.imwrite`, not empty. */
  predicate WellFormed(fs: FileSystem) {
    forall p :: p in fs.files ==> fs.files[p].Valid() && !IsEmpty(fs.files[p])
  }

  /** One `ImageRegressionAssertions` object. */
  datatype Assertions = Assertions(
    testName: string, testFilePath: string, statesFolder: Option<string>, overwrite: bool)

  /** `FileNotFound` is the `FileNotFoundError` of the getter;
      `ShapeMismatch` is `cv2.compare` rejecting images of different shapes;
      `RegressionFound` is the failed assertion, with the number of
      differing pixels; `EmptyImage` is `cv2.imwrite` refusing to write an
      empty image; `EmptyDifference` is `cv2.cvtColor` refusing the empty
      difference of two empty images. */
  datatype Error =
    | FileNotFound(path: string)
    | ShapeMismatch
    | RegressionFound(differing: nat)
    | EmptyImage
    | EmptyDifference

  /** `<test file stem>_<test name>.png`. */
  function StateImageName(a: Assertions): string {
    var stem := Splitext(Basename(a.testFilePath)).0;
    stem + "_" + a.testName + StateExtension
  }

  predicate HasStatesFolder(a: Assertions) {
    a.statesFolder.Some? && |a.statesFolder.value| > 0
  }

  /** The directory holding the state image: the test file's directory,
      with the states folder joined under it when one is given. */
  function StatesDirectory(a: Assertions): string {
    var d := Dirname(a.testFilePath);
    if HasStatesFolder(a) then Join(d, a.statesFolder.value) else d
  }

  /** `__get_state_image_path`: the path, and the file system after the
      `os.makedirs(_, exist_ok=True)` it performs when a states folder is
      given. Files are never touched. */
  function StateImagePath(a: Assertions, fs: FileSystem): (r: (FileSystem, string))
    ensures r.0.files == fs.files
    ensures r.0.dirs == if HasStatesFolder(a) then fs.dirs + {StatesDirectory(a)} else fs.dirs
  {
    var path := Join(StatesDirectory(a), StateImageName(a));
    if HasStatesFolder(a) then (fs.(dirs := fs.dirs + {StatesDirectory(a)}), path)
    else (fs, path)
  }

  /** The state image name has no slash when the test name has none: the
      stem comes from the test file's basename. */
  lemma StateImageNameHasNoSep(a: Assertions)
    requires HasNoSep(a.testName)
    ensures HasNoSep(StateImageName(a))
  {
    var name := Basename(a.testFilePath);
    var stem := Splitext(name).0;
    StemHasNoSep(name);
    assert HasNoSep("_");
    assert HasNoSep(StateExtension);
    NoSepConcat(stem, "_");
    NoSepConcat(stem + "_", a.testName);
    NoSepConcat(stem + "_" + a.testName, StateExtension);
  }

  /** Where the state image lives. Its file name is
      `<test file stem>_<test name>.png`; its directory is the test file's
      own directory when no states folder is given, and that folder joined
      under it otherwise (an absolute folder replaces it). */
  lemma StateImageLocation(a: Assertions, fs: FileSystem)
    requires HasNoSep(a.testName)
    ensures var path := StateImagePath(a, fs).1;
      && Basename(path) == Splitext(Basename(a.testFilePath)).0 + "_" + a.testName + StateExtension
      && (!HasStatesFolder(a) ==> Dirname(path) == Dirname(a.testFilePath))
      && (HasStatesFolder(a) && DirForm(Join(Dirname(a.testFilePath), a.statesFolder.value)) ==>
            Dirname(path) == Join(Dirname(a.testFilePath), a.statesFolder.value))
  {
    StateImageNameHasNoSep(a);
    BasenameOfJoin(StatesDirectory(a), StateImageName(a));
    if !HasStatesFolder(a) {
      DirnameOfJoin(Dirname(a.testFilePath), StateImageName(a));
    } else if DirForm(StatesDirectory(a)) {
      DirnameOfJoin(StatesDirectory(a), StateImageName(a));
    }
  }

  /** The `__state` getter: `cv2.imread` of the state path, which yields
      `None` for a missing file. */
  function ReadState(a: Assertions, fs: FileSystem): (r: (FileSystem, Result<Image, Error>))
    ensures r.0 == StateImagePath(a, fs).0
    ensures var path := StateImagePath(a, fs).1;
      if path in fs.files then r.1 == Success(fs.files[path]) else r.1 == Failure(FileNotFound(path))
  {
    var (fs', path) := StateImagePath(a, fs);
    if path in fs'.files then (fs', Success(fs'.files[path])) else (fs', Failure(FileNotFound(path)))
  }

  /** The `__state` setter: `cv2.imwrite` of the state path. The path is
      computed, and its directory created, before the write; an empty
      image is then refused and no file changes. */
  function WriteState(a: Assertions, fs: FileSystem, img: Image): (r: (FileSystem, Result<(), Error>))
    ensures r.0.dirs == StateImagePath(a, fs).0.dirs
    ensures r.1.Success? <==> !IsEmpty(img)
    ensures r.1.Failure? ==> r.1.error == EmptyImage && r.0.files == fs.files
    ensures r.1.Success? ==> r.0.files == fs.files[StateImagePath(a, fs).1 := img]
    ensures WellFormed(fs) && img.Valid() ==> WellFormed(r.0)
  {
    var (fs', path) := StateImagePath(a, fs);
    if IsEmpty(img) then (fs', Failure(EmptyImage))
    else (fs'.(files := fs'.files[path := img]), Success(()))
  }

  /** Writing the state and reading it back gives the written image; after
      a refused write the read sees what was stored before. */
  lemma ReadAfterWrite(a: Assertions, fs: FileSystem, img: Image)
    ensures !IsEmpty(img) ==> ReadState(a, WriteState(a, fs, img).0).1 == Success(img)
    ensures IsEmpty(img) ==> ReadState(a, WriteState(a, fs, img).0).1 == ReadState(a, fs).1
  {
  }

  /** `cv2.compare(_, _, cv2.CMP_NE)` on one pixel: 255 in each channel that
      differs, 0 in each that agrees. */
  function NotEqual(p: Rgb, q: Rgb): Rgb {
    Px(if p.c0 != q.c0 then 255 else 0,
       if p.c1 != q.c1 then 255 else 0,
       if p.c2 != q.c2 then 255 else 0)
  }

  /** The gray difference of two pixels is zero exactly when they are equal. */
  lemma DifferenceOfPixels(p: Rgb, q: Rgb)
    ensures Bgr2Gray(NotEqual(p, q)) == 0 <==> p == q
  {
    var d := NotEqual(p, q);
    LumaOfBinary(d.c2, d.c1, d.c0);
  }

  /** The comparison converted to gray (`cv2.COLOR_BGR2GRAY`). */
  function Difference(stored: Image, latest: Image): (r: Plane)
    requires stored.Valid() && Fits(latest, stored.height, stored.width)
    ensures Fits(r, stored.height, stored.width)
    ensures forall i, j :: 0 <= i < stored.height && 0 <= j < stored.width
              ==> (r.At(i, j) == 0 <==> stored.At(i, j) == latest.At(i, j))
  {
    var r := Tabulate(stored.height, stored.width,
      (i, j) => if 0 <= i < stored.height && 0 <= j < stored.width
                then Bgr2Gray(NotEqual(stored.At(i, j), latest.At(i, j))) else 0);
    forall i, j | 0 <= i < stored.height && 0 <= j < stored.width {
      DifferenceOfPixels(stored.At(i, j), latest.At(i, j));
    }
    r
  }

  /** The number of nonzero samples in one row. */
  function CountRow(s: seq<Byte>): (n: nat)
    ensures n <= |s|
    ensures n == 0 <==> forall k :: 0 <= k < |s| ==> s[k] == 0
  {
    if |s| == 0 then 0
    else CountRow(s[..|s| - 1]) + (if s[|s| - 1] != 0 then 1 else 0)
  }

  /** `cv2.countNonZero` over the rows of a plane. */
  function CountNonZero(rows: seq<seq<Byte>>): (n: nat)
    ensures n == 0 <==> forall i, k :: 0 <= i < |rows| && 0 <= k < |rows[i]| ==> rows[i][k] == 0
  {
    if |rows| == 0 then 0
    else
      var last := rows[|rows| - 1];
      var n := CountNonZero(rows[..|rows| - 1]) + CountRow(last);
      assert forall i :: 0 <= i < |rows| - 1 ==> rows[..|rows| - 1][i] == rows[i];
      n
  }

  /** An image does not differ from itself. */
  lemma NoDifferenceFromItself(img: Image)
    requires img.Valid()
    ensures CountNonZero(Difference(img, img).rows) == 0
  {
    var diff := Difference(img, img);
    forall i, k | 0 <= i < |diff.rows| && 0 <= k < |diff.rows[i]|
      ensures diff.rows[i][k] == 0
    {
      assert diff.At(i, k) == 0;
    }
  }

  /** The count of differing pixels is zero exactly when the two images
      of one shape are equal. */
  lemma NoDifferenceIffEqual(stored: Image, latest: Image)
    requires stored.Valid() && Fits(latest, stored.height, stored.width)
    ensures CountNonZero(Difference(stored, latest).rows) == 0 <==> stored == latest
  {
    var diff := Difference(stored, latest);
    NoDifferenceFromItself(stored);
    if CountNonZero(diff.rows) == 0 {
      forall i, j | 0 <= i < stored.height && 0 <= j < stored.width
        ensures stored.At(i, j) == latest.At(i, j)
      {
        assert diff.rows[i][j] == 0;
      }
      GridsEqual(stored, latest);
    }
  }

  /** The comparison of `assert_no_regression`: it rejects images of
      different shapes, then an empty difference, and passes exactly when
      the two images are non-empty and agree in every channel of every
      pixel. */
  function Compare(stored: Image, latest: Image): (r: Result<(), Error>)
    requires stored.Valid() && latest.Valid()
    ensures r.Success? <==> stored == latest && !IsEmpty(stored)
    ensures r == Failure(ShapeMismatch) <==> stored.height != latest.height || stored.width != latest.width
    ensures r == Failure(EmptyDifference)
            <==> stored.height == latest.height && stored.width == latest.width && IsEmpty(stored)
  {
    if stored.height != latest.height || stored.width != latest.width then Failure(ShapeMismatch)
    else if IsEmpty(stored) then Failure(EmptyDifference)
    else
      var n := CountNonZero(Difference(stored, latest).rows);
      NoDifferenceIffEqual(stored, latest);
      if n == 0 then Success(()) else Failure(RegressionFound(n))
  }

  /** `assert_no_regression`: in overwrite mode the new image is stored
      first, so the comparison is against itself and passes, unless the
      image is empty and the write raises; otherwise the stored image is
      read, a missing one fails with `FileNotFound`, and the files are left
      as they were. */
  function AssertNoRegression(a: Assertions, fs: FileSystem, latest: Image): (r: (FileSystem, Result<(), Error>))
    requires WellFormed(fs) && latest.Valid()
    ensures var path := StateImagePath(a, fs).1;
      r.1.Success? <==> path in r.0.files && r.0.files[path] == latest
    ensures r.1 == Failure(EmptyImage) <==> a.overwrite && IsEmpty(latest)
    ensures a.overwrite && !IsEmpty(latest) ==> r.1.Success? && r.0.files == fs.files[StateImagePath(a, fs).1 := latest]
    ensures !a.overwrite || IsEmpty(latest) ==> r.0.files == fs.files
    ensures !a.overwrite ==> (r.1 == Failure(FileNotFound(StateImagePath(a, fs).1)) <==> StateImagePath(a, fs).1 !in fs.files)
    ensures r.0.dirs == StateImagePath(a, fs).0.dirs
  {
    var (fs1, written) := if a.overwrite then WriteState(a, fs, latest) else (fs, Success(()));
    match written
    case Failure(e) => (fs1, Failure(e))
    case Success(_) =>
      var (fs2, stored) := ReadState(a, fs1);
      match stored
      case Failure(e) => (fs2, Failure(e))
      case Success(img) => (fs2, Compare(img, latest))
  }

  /** A collected test: its name, its file and its markers with their
      arguments. */
  datatype Item = Item(name: string, path: string, markers: map<string, seq<string>>)

  datatype Outcome = Run | Skip(reason: string)

  /** `pytest_runtest_setup`: an overwrite run only runs regression tests. */
  function RuntestSetup(item: Item, overwrite: bool): (o: Outcome)
    ensures o.Skip? <==> overwrite && RegressionMarker !in item.markers
  {
    if overwrite && RegressionMarker !in item.markers then
      Skip("Skipping " + item.name + " as not image regression test")
    else Run
  }

  /** The `image_regression_assertions` fixture: the marker's first
      argument is the states folder. A test without the marker, or with a
      marker without arguments, gets no object (pytest raises). */
  function Fixture(item: Item, overwrite: bool): (r: Option<Assertions>)
    ensures r.Some? <==> RegressionMarker in item.markers && |item.markers[RegressionMarker]| > 0
    ensures r.Some? ==> r.value.overwrite == overwrite && r.value.testName == item.name
                        && r.value.testFilePath == item.path
                        && r.value.statesFolder == Some(item.markers[RegressionMarker][0])
  {
    if RegressionMarker in item.markers && |item.markers[RegressionMarker]| > 0 then
      Some(Assertions(item.name, item.path, Some(item.markers[RegressionMarker][0]), overwrite))
    else None
  }

  /** In an overwrite run every test that is not skipped is a regression
      test, and its assertion passes and stores the new image, whatever the
      file system held, unless the new image is empty and cannot be
      written. */
  lemma OverwriteRunRecords(item: Item, fs: FileSystem, latest: Image)
    requires WellFormed(fs) && latest.Valid()
    requires RuntestSetup(item, true) == Run
    requires RegressionMarker in item.markers ==> |item.markers[RegressionMarker]| > 0
    ensures Fixture(item, true).Some?
    ensures var a := Fixture(item, true).value;
      var r := AssertNoRegression(a, fs, latest);
      && (!IsEmpty(latest) ==> r.1.Success? && r.0.files[StateImagePath(a, fs).1] == latest)
      && (IsEmpty(latest) ==> r.1 == Failure(EmptyImage) && r.0.files == fs.files)
  {
  }
}

=== FILE: segmentation.dfy ===
/** The segmentation engine: resize and normalise the image for the network,
    threshold and invert the two confidence planes it returns, resize them
    back, fuse them with a joint bilateral filter and replicate the result
    to three channels.

    Inference, resizing and filtering are black boxes with shape-only
    contracts. Confidences and normalised samples are exact reals. */
module Segmentation {
  import opened Wrappers
  import opened Images

  /** The network input size, in OpenCV's (width, height) order (256, 144). */
  const InputWidth: nat := 256
  const InputHeight: nat := 144

  /** Arguments of the joint bilateral filter. */
  const FilterDiameter: nat := 8
  const SigmaColor: real := 75.0
  const SigmaSpace: real := 75.0

  /** A confidence strictly above this counts as set. */
  const Cutoff: real := 0.5

  /** A network input tensor of shape (batch, height, width, 3). */
  datatype Tensor = Tensor(batch: seq<Grid<Px<real>>>)

  /** One of the two per-pixel confidence planes the network returns. */
  type Confidence = Grid<real>

  /** The interpreter: one tensor in, the planes the code calls foreground
      and background out (channels 0 and 1 of the output), each of the
      network's 144 x 256 resolution. */
  type Inference = f: Tensor -> (Confidence, Confidence)
    | forall t: Tensor :: Fits(f(t).0, InputHeight, InputWidth) && Fits(f(t).1, InputHeight, InputWidth)
    witness (t: Tensor) => (Tabulate(InputHeight, InputWidth, (i, j) => 0.0), Tabulate(InputHeight, InputWidth, (i, j) => 0.0))

  /** `cv2.ximgproc.jointBilateralFilter(joint, src, d, sigmaColor,
      sigmaSpace)`: the joint image guides the smoothing of `src`, and the
      result has the shape of `src`. */
  type JointFilter = f: (Plane, Plane, nat, real, real) -> Plane
    | forall joint: Plane, src: Plane, d: nat, sc: real, ss: real
        :: src.Valid() ==> Fits(f(joint, src, d, sc, ss), src.height, src.width)
    witness (joint: Plane, src: Plane, d: nat, sc: real, ss: real) => src

  /** `image / 255.0` on one sample. */
  function Normalize(b: Byte): (r: real)
    ensures 0.0 <= r <= 1.0
    ensures r * 255.0 == b as real
  {
    b as real / 255.0
  }

  function NormalizePx(p: Rgb): (r: Px<real>)
    ensures 0.0 <= r.c0 <= 1.0 && 0.0 <= r.c1 <= 1.0 && 0.0 <= r.c2 <= 1.0
  {
    Px(Normalize(p.c0), Normalize(p.c1), Normalize(p.c2))
  }

  /** The network input: the image resized to 256 x 144, normalised to
      [0, 1], with a leading batch dimension of one. Multiplying a sample
      back by 255 recovers the resized image's sample. */
  function ToInput(img: Image, resize: ImageResizer): (t: Tensor)
    ensures |t.batch| == 1 && Fits(t.batch[0], InputHeight, InputWidth)
    ensures forall i, j :: 0 <= i < InputHeight && 0 <= j < InputWidth ==>
              var p := t.batch[0].At(i, j);
              var q := resize(img, InputWidth, InputHeight).At(i, j);
              0.0 <= p.c0 <= 1.0 && 0.0 <= p.c1 <= 1.0 && 0.0 <= p.c2 <= 1.0
              && p.c0 * 255.0 == q.c0 as real && p.c1 * 255.0 == q.c1 as real && p.c2 * 255.0 == q.c2 as real
  {
    var small := resize(img, InputWidth, InputHeight);
    Tensor([Tabulate(InputHeight, InputWidth,
      (i, j) => if 0 <= i < InputHeight && 0 <= j < InputWidth then NormalizePx(small.At(i, j)) else Px(0.0, 0.0, 0.0))])
  }

  /** `(p > 0.5) * 255`: a boolean times 255, as a platform integer. */
  function Threshold(p: real): int {
    if p > Cutoff then 255 else 0
  }

  /** `np.invert` on a signed 64-bit integer: two's-complement NOT. */
  function Invert(x: int): int {
    -x - 1
  }

  /** `np.uint8(x)` on an integer: wrap-around modulo 256. */
  function WrapU8(x: int): Byte {
    x % 256
  }

  /** Inverting an 8-bit value as a signed integer and wrapping it back to
      8 bits is the 8-bit complement. */
  lemma InvertWrapsToComplement(v: Byte)
    ensures WrapU8(Invert(v)) == 255 - v
  {
    assert Invert(v) + 256 == 255 - v;
  }

  /** One refined sample: 0 where the confidence is strictly above 0.5 and
      255 everywhere else, a confidence of exactly 0.5 included. */
  function Refine(p: real): (b: Byte)
    ensures b == 0 <==> p > Cutoff
    ensures b == 255 <==> p <= Cutoff
  {
    InvertWrapsToComplement(Threshold(p));
    WrapU8(Invert(Threshold(p)))
  }

  function RefinePlane(c: Confidence): (r: Plane)
    requires c.Valid()
    ensures Fits(r, c.height, c.width)
    ensures forall i, j :: 0 <= i < c.height && 0 <= j < c.width ==> r.At(i, j) == Refine(c.At(i, j))
  {
    Tabulate(c.height, c.width,
      (i, j) => if 0 <= i < c.height && 0 <= j < c.width then Refine(c.At(i, j)) else 0)
  }

  /** `cv2.cvtColor(_, cv2.COLOR_GRAY2RGB)`: every channel is the gray value. */
  function GrayToRgb(p: Plane): (r: Image)
    requires p.Valid()
    ensures Fits(r, p.height, p.width)
    ensures forall i, j :: 0 <= i < p.height && 0 <= j < p.width
              ==> SameChannels(r.At(i, j)) && r.At(i, j).c0 == p.At(i, j)
  {
    Tabulate(p.height, p.width,
      (i, j) => if 0 <= i < p.height && 0 <= j < p.width then Px(p.At(i, j), p.At(i, j), p.At(i, j)) else Black)
  }

  /** Converting a replicated mask back to gray gives the plane again. */
  lemma GrayRoundTrip(p: Plane)
    requires p.Valid()
    ensures forall i, j :: 0 <= i < p.height && 0 <= j < p.width
              ==> Rgb2Gray(GrayToRgb(p).At(i, j)) == p.At(i, j)
  {
    forall i, j | 0 <= i < p.height && 0 <= j < p.width {
      LumaOfGray(p.At(i, j));
    }
  }

  /** The black boxes the engine calls. */
  datatype Collaborators = Collaborators(
    infer: Inference, resizeImage: ImageResizer, resizePlane: PlaneResizer, filter: JointFilter)

  /** One refined plane brought back to the original image's size. */
  function Restore(c: Confidence, width: nat, height: nat, resize: PlaneResizer): (r: Plane)
    requires c.Valid()
    ensures Fits(r, height, width)
  {
    resize(RefinePlane(c), width, height)
  }

  /** `perform_segmentation`: a mask of the original's height and width
      whose three channels agree. The background plane is the joint image
      and the foreground plane is the one smoothed. An empty image is
      rejected by the first resize (`None`). */
  function PerformSegmentation(img: Image, k: Collaborators): (r: Option<Image>)
    requires img.Valid()
    ensures r.None? <==> IsEmpty(img)
    ensures r.Some? ==> Fits(r.value, img.height, img.width)
    ensures r.Some? ==> forall i, j :: 0 <= i < img.height && 0 <= j < img.width ==> SameChannels(r.value.At(i, j))
  {
    if IsEmpty(img) then None
    else
      var planes := k.infer(ToInput(img, k.resizeImage));
      var foreground := Restore(planes.0, img.width, img.height, k.resizePlane);
      var background := Restore(planes.1, img.width, img.height, k.resizePlane);
      Some(GrayToRgb(k.filter(background, foreground, FilterDiameter, SigmaColor, SigmaSpace)))
  }

  /** The roles of the two planes: for an image at the network's
      resolution, with collaborators that resize a plane already of the
      requested size to itself and a filter that returns its source
      unchanged, the mask is black exactly where the foreground
      confidence is above 0.5 and white everywhere else; the background
      plane does not reach the result. */
  lemma MaskFollowsForeground(img: Image, k: Collaborators)
    requires img.Valid() && img.height == InputHeight && img.width == InputWidth
    requires forall g: Plane :: Fits(g, img.height, img.width) ==> k.resizePlane(g, img.width, img.height) == g
    requires forall joint: Plane, src: Plane :: k.filter(joint, src, FilterDiameter, SigmaColor, SigmaSpace) == src
    ensures forall i, j :: 0 <= i < img.height && 0 <= j < img.width ==>
              var p := k.infer(ToInput(img, k.resizeImage)).0.At(i, j);
              PerformSegmentation(img, k).value.At(i, j) == if p > Cutoff then Black else White
  {
    var planes := k.infer(ToInput(img, k.resizeImage));
    var refined := RefinePlane(planes.0);
    assert Restore(planes.0, img.width, img.height, k.resizePlane) == refined;
    var r := PerformSegmentation(img, k).value;
    assert r == GrayToRgb(refined);
  }

  /** The other role: with the same pass-through resizes and a filter that
      returns its guide unchanged, the mask is black exactly where the
      background confidence is above 0.5 and white everywhere else. So the
      guide is the background plane, refined and restored as the
      foreground plane is. */
  lemma MaskFollowsBackground(img: Image, k: Collaborators)
    requires img.Valid() && img.height == InputHeight && img.width == InputWidth
    requires forall g: Plane :: Fits(g, img.height, img.width) ==> k.resizePlane(g, img.width, img.height) == g
    requires forall joint: Plane, src: Plane :: src.Valid() && Fits(joint, src.height, src.width)
               ==> k.filter(joint, src, FilterDiameter, SigmaColor, SigmaSpace) == joint
    ensures forall i, j :: 0 <= i < img.height && 0 <= j < img.width ==>
              var p := k.infer(ToInput(img, k.resizeImage)).1.At(i, j);
              PerformSegmentation(img, k).value.At(i, j) == if p > Cutoff then Black else White
  {
    var planes := k.infer(ToInput(img, k.resizeImage));
    var refined := RefinePlane(planes.1);
    assert Restore(planes.1, img.width, img.height, k.resizePlane) == refined;
    var foreground := Restore(planes.0, img.width, img.height, k.resizePlane);
    assert k.filter(refined, foreground, FilterDiameter, SigmaColor, SigmaSpace) == refined;
    var r := PerformSegmentation(img, k).value;
    assert r == GrayToRgb(refined);
  }
}

=== FILE: wrappers.dfy ===
/** Failure-compatible Option and Result types standing in for Python's
    `None` and raised exceptions. */
module Wrappers {

  datatype Option<+T> = None | Some(value: T)

  datatype Result<+R, +E> = Success(value: R) | Failure(error: E) {

    predicate IsFailure() {
      Failure?
    }

    function PropagateFailure<U>(): Result<U, E>
      requires Failure?
    {
      Failure(error)
    }

    function Extract(): R
      requires Success?
    {
      value
    }
  }
}
